=== FILE: README.md ===
# crawl-llm-extract, modelled in Dafny

crawl-llm-extract crawls an API documentation site, has an LLM turn each
page into clean markdown, and writes the results to an output directory.
This project models the deterministic core around those external calls.
Everything is a pure function over immutable data. The crawler, the LLM,
SHA-256, the clock and JSON decoding are parameters.

- **Content index** (`content_index.dfy`, module `ContentIndex`). This is
  the deduplication cache `ContentIndexManager`. It keeps a map from URL to
  record and a map from relative path to file contents. It covers the
  new / changed / unchanged decision, the single mutating update, the
  readers of cached files, the statistics, stale-entry cleanup and the
  fallback when loading the index.
- **Inclusion filter** (`url_filter.dfy`, module `UrlFilter`). This is
  `URLFilter`. It covers the decision table that reads include/exclude out
  of an LLM answer, the per-page analysis (content sample, o1 detection,
  the request sent) and the fail-open filter loop over the crawl.
- **Orchestrator** (`api_doc_crawler.dfy`, module `ApiDocCrawler`). It
  covers the `crawl_and_parse` loop and `save_results`: the markdown files,
  the metadata files, the `index.json` manifest and the two ways the save
  can stop part-way.
- **Configuration** (`config.dfy`, module `Config`). It covers
  `CrawlerConfig` and `LLMConfig` with their defaults, setters and
  validators.
- Shared pieces: `values.dfy` (`Option`, JSON values, Python truthiness,
  `dict.get`, and a dict key that can be absent, hold `None` or hold a
  value), `text.dfy` (the Python `str` operations used: `find`,
  `rfind`, slicing, `lower`, `strip`, `in`, `join`, `split`, decimal
  rendering), `sequences.dfy` (an order-preserving filter-map with a lemma
  that returns the positions it kept), `sets.dfy` (set cardinality) and
  `crawl_page.dfy` (the page dict the crawl produces).

Inside the JSON branch of `_parse_inclusion_response`, every exception
ends in `(True, "Parse error: …")`. The keyword scan runs unless the
answer holds both a `{` and a `}` (src/url_filter.py:186-214), so an
answer whose JSON fails to decode is included whatever keywords it holds
(`UrlFilter.DecodeFailureHasNoFallback`), while "exclude {" is excluded
by the scan (`UrlFilter.OneBraceUsesKeywords`).

The model also keeps one quirk of the cache as written. `get_cache_stats`
and `cleanup_stale_entries` read file names with `record.get(field, '')`.
When a field is missing, the path they test is the base directory itself,
which the manager creates and which therefore exists. Such a record counts
as having both files and is never stale
(`ContentIndex.MissingFileNameCountsAsPresent`). A field holding `null`
is different: `os.path.join` raises `TypeError` for it, so one such record
makes the statistics fail and stops the cleanup before it removes anything
(`ContentIndex.NullFileNameAbortsCleanup`).

The cache opens its files as UTF-8 and catches only `JSONDecodeError` and
`IOError`. A file whose bytes are not UTF-8 raises `UnicodeDecodeError`,
which neither handler catches: the cached-file readers raise, and an index
file like that makes `load_index`, and with it the constructor, raise
(`ContentIndex.ReadRecordFile`, `ContentIndex.LoadIndex`).

`ApiDocCrawler` never calls the cache or the filter. The model does not
chain them into one pipeline, and no lemma composes them.

## Model

| member | source | states |
|---|---|---|
| ContentIndex.CalculateUrlHash | src/content_index.py:84-94 | the URL hash is a prefix of the URL's hex digest, 12 characters long unless the digest is shorter |
| ContentIndex.GetUrlRecord | src/content_index.py:96-106 | a record is returned exactly when the URL is a key of the index, and it is the stored record |
| ContentIndex.IsContentChanged | src/content_index.py:108-124 | a URL without a record (or with the empty dict as record) counts as changed; otherwise changed iff the stored hash, possibly absent, differs from the new one |
| ContentIndex.ShouldProcessWithLlm | src/content_index.py:235-256 | "New URL" iff there is no record or the record is the empty dict; "changed" iff a non-empty record's hash (possibly absent) differs from the hash of the new content; no processing iff the hashes match, and that is exactly the "unchanged" answer |
| ContentIndex.UnreadableRecordIsChanged | src/content_index.py:248-254 | a stored record with keys but none of them readable is a true dict, so the URL is not new and its content counts as changed |
| ContentIndex.ReadRecordFile | src/content_index.py:126-154 | raises, with the decoder's message, iff the record exists and names a non-empty existing file that is not UTF-8; a document is returned iff the record exists, names a non-empty file, the file exists and parses, and it is that file's document |
| ContentIndex.GetCachedExtraction | src/content_index.py:126-154 | raises iff the named extraction file is not UTF-8; `None` when the record, the file name, the file or its JSON is missing; otherwise the stored extraction |
| ContentIndex.GetCachedMetadata | src/content_index.py:156-184 | raises iff the named metadata file is not UTF-8; `None` when the record, the file name, the file or its JSON is missing; otherwise the stored metadata |
| ContentIndex.FilesDistinct | src/content_index.py:202-203 | an extraction path never equals a metadata path |
| ContentIndex.UpdateUrlRecord | src/content_index.py:186-212 | the URL's record becomes exactly the given hash, the timestamp, `extractions/<h>.json`, `metadata/<h>_meta.json` and h, the URL's hash; keys grow by at most the URL; other records unchanged |
| ContentIndex.WriteDoc | src/content_index.py:214-230 | a given document is stored at its path; no document leaves the files as they were; no other path changes or appears |
| ContentIndex.UpdateWritesOnlyItsFiles | src/content_index.py:214-230 | each given document is stored at its path, a document not given leaves its path as it was, every other file is unchanged and no other file appears |
| ContentIndex.GetCacheStats | src/content_index.py:258-286 | raises `TypeError` iff some record's file name holds `null`; otherwise the total equals the index size and each file count is the number of records whose file exists, hence at most the total |
| ContentIndex.CleanupStaleEntries | src/content_index.py:288-313 | raises `TypeError`, before removing anything, iff some record's file name holds `null`; otherwise a record is removed iff both of its files are absent, kept records are unchanged, files are untouched, the count returned is the size difference and the index is saved iff something was removed |
| ContentIndex.LoadIndex | src/content_index.py:45-60 | a missing or unreadable index file gives the empty index; one that is not UTF-8 raises with the decoder's message; a loaded one is used as is |
| ContentIndex.LoadFallbackRecomputes | src/content_index.py:45-60 | after the fallback for a missing or unreadable file, every URL is "New URL", no cached extraction is served and the statistics count no URL |
| ContentIndex.UpdatePreservesWellFormed | src/content_index.py:198-212 | every record stays one whose file names derive from its URL's hash, so repeated updates of a URL reuse the same files |
| ContentIndex.CleanupPreservesWellFormed | src/content_index.py:295-307 | cleanup of a well-formed index completes and keeps it well formed |
| ContentIndex.NewUrlIffAbsent | src/content_index.py:248-251 | in a well-formed index the "New URL" answer is given exactly for URLs that are not keys |
| ContentIndex.ShouldProcessAgreesWithIsContentChanged | src/content_index.py:248-256 | the process flag equals `is_content_changed` on the content's hash |
| ContentIndex.UpdateThenUnchanged | src/content_index.py:198-256 | after recording the hash of some HTML, the same HTML is answered "unchanged - using cached extraction" |
| ContentIndex.UpdateThenCached | src/content_index.py:136-233 | the documents an update writes are what the two readers return next |
| ContentIndex.ChangedContentOverwrites | src/content_index.py:119-212 | assuming the two contents hash differently: the new content is reported changed, and the update replaces the record without adding a key |
| ContentIndex.MissingFileNameCountsAsPresent | src/content_index.py:271-303 | a record whose file-name keys are absent is counted in both statistics and survives every cleanup that completes |
| ContentIndex.NullFileNameAbortsCleanup | src/content_index.py:271-299 | one record whose file name holds `null` makes both cleanup and statistics raise `TypeError` |
| ContentIndex.CleanupIdempotent | src/content_index.py:295-313 | after a completed cleanup, a second one completes, removes nothing and saves nothing |
| ContentIndex.StatsAfterCleanup | src/content_index.py:265-303 | after a completed cleanup the statistics complete, and the two file counts together are at least the number of URLs |
| ContentIndex.DedupScenario | src/content_index.py:186-256 | empty cache, page A with X: new; X again: unchanged and the first extraction is served; Y: changed, and A keeps a single record with Y's hash and the new extraction |
| UrlFilter.LoadsJson | src/url_filter.py:194 | decoding the empty text fails with CPython's "Expecting value" message; other texts go to the decoder |
| UrlFilter.JsonSpan | src/url_filter.py:188-192 | the span runs from the first `{` through the last `}`, and is empty when the last `}` comes first |
| UrlFilter.DecisionVerdict | src/url_filter.py:194-201 | a decoded answer excludes only when it is an object whose `decision` is a string |
| UrlFilter.ParseInclusionResponse | src/url_filter.py:176-214 | fail-open: the page is excluded iff the answer explicitly asks for it (JSON object with a string decision that is not "include" after lower/strip, or, when a `{` or a `}` is missing, "exclude" without "include") |
| UrlFilter.JsonDecision | src/url_filter.py:188-201 | with both braces and a decoded object: included iff the decision, lower-cased and stripped, is "include"; explanation is the `explanation` field or "No explanation provided" |
| UrlFilter.MissingDecisionExcludes | src/url_filter.py:195-199 | an object without `decision` excludes the page |
| UrlFilter.DecodeFailureHasNoFallback | src/url_filter.py:190-214 | a decode failure includes the page with "Parse error: " and the message, whatever keywords the text holds |
| UrlFilter.ReversedBracesIncluded | src/url_filter.py:188-214 | when the last `}` precedes the first `{`, the span is empty and the page is included with the empty-text parse error |
| UrlFilter.KeywordVerdict | src/url_filter.py:202-211 | excluded iff the lower-cased answer holds "exclude" but not "include"; a clear include keeps the answer as explanation, an ambiguous one is marked "Could not parse clear decision: " |
| UrlFilter.KeywordFallback | src/url_filter.py:202-211 | when a `{` or a `}` is missing: "include" alone → (true, text); "exclude" alone → (false, text); both or neither → (true, "Could not parse clear decision: " + text) |
| UrlFilter.OneBraceUsesKeywords | src/url_filter.py:186-211 | "exclude {", which has a `{` but no `}`, goes to the keyword scan and is excluded with itself as explanation |
| UrlFilter.CapitalisedExcludeExcludes | src/url_filter.py:204-208 | the keyword scan ignores letter case: "EXCLUDE" excludes |
| UrlFilter.SetTargetTopic | src/url_filter.py:216-223 | only the target topic changes |
| UrlFilter.NewTopicReachesPrompt | src/url_filter.py:88-99 | after `set_target_topic(t)` the request for a page ends with the prompt built from t, on the same model |
| UrlFilter.ContentSample | src/url_filter.py:91-96 | the key is chosen by presence: a prefix of at most 2000 characters of `cleaned_html` when present, else of `html`, else empty; raises "'NoneType' object is not subscriptable" iff the chosen key holds `None` |
| UrlFilter.PromptTitle | src/url_filter.py:89 | the title handed to the prompt: the stored one, "None" for a key holding `None`, `''` for a missing key |
| UrlFilter.ModelName | src/url_filter.py:103 | the name is the suffix of the provider after its last `/` (the whole provider without one) and holds no `/` |
| UrlFilter.IsO1Model | src/url_filter.py:104 | an o1 model is one whose lower-cased name contains "o1" |
| UrlFilter.O1MiniIsO1 | src/url_filter.py:103-104 | "openai/o1-mini" is detected as an o1 model |
| UrlFilter.Gpt4oIsNotO1 | src/url_filter.py:103-104 | "openai/gpt-4o" is not, though it contains both letters |
| UrlFilter.BuildChatRequest | src/url_filter.py:102-128 | the model is the name after the slash and the prompt ends the last user message; o1: one user message holding the instruction, a blank line and the prompt, no temperature, no token limit; otherwise system + user messages, the configured temperature and 500 tokens |
| UrlFilter.InclusionRequest | src/url_filter.py:88-99 | the request goes to the filter's model and its last message ends with the prompt built from the topic, the URL, the title and the sample |
| UrlFilter.AnalyzePageInclusion | src/url_filter.py:77-136 | a sample that raises escapes the analysis with its message; a failed call includes the page with "Analysis failed: " and the message; when the call completed, the page is excluded iff its stripped text explicitly excludes |
| UrlFilter.Keep | src/url_filter.py:55-72 | a page is dropped iff its analysis finished with exclude; a kept page is unchanged except `included = True` and the explanation (the verdict's, or "Analysis failed: " and the message) |
| UrlFilter.FilterCrawledResults | src/url_filter.py:35-75 | empty input gives `[]`; never longer than the input; every kept page is marked included with an explanation |
| UrlFilter.FilterIsFilterMap | src/url_filter.py:51-75 | the loop equals the order-preserving filter-map of the per-page step |
| UrlFilter.FilterKeepsOrder | src/url_filter.py:51-75 | the output is the subsequence, in input order, of the pages not excluded; a page is missing iff its analysis excluded it |
| UrlFilter.FilterAppend | src/url_filter.py:51-75 | filtering two runs of pages one after the other gives the two results one after the other |
| UrlFilter.ExcludedPageDropped | src/url_filter.py:51-75 | an excluded page leaves no trace: the result equals the result without that page |
| UrlFilter.ExplicitExclusionDropped | src/url_filter.py:51-136 | a page whose completed reply explicitly excludes it is dropped from the filtered crawl |
| UrlFilter.FailedAnalysisKept | src/url_filter.py:67-72 | a page whose analysis raised appears in the output with "Analysis failed: " and the message |
| UrlFilter.NoneHtmlPageKept | src/url_filter.py:55-96 | a page whose `cleaned_html` holds `None` is kept, with "Analysis failed: 'NoneType' object is not subscriptable" |
| ApiDocCrawler.ParsePage | src/api_doc_crawler.py:58-73 | a page yields a result iff it has a `cleaned_html` key (whose value, `None` included, goes to the parser), the parse succeeds and it has `title` and `depth` keys; the result copies url, title and depth (`None` as `null`) and holds the parsed blocks as content |
| ApiDocCrawler.UntitledPageKept | src/api_doc_crawler.py:62-69 | a parsed page whose title holds `None` is kept with a `null` title |
| ApiDocCrawler.CrawlAndParse | src/api_doc_crawler.py:36-75 | an empty crawl gives `[]`; never longer than the crawl; every result has exactly url, title, depth and a list of strings as content |
| ApiDocCrawler.CrawlAndParseIsFilterMap | src/api_doc_crawler.py:57-75 | the loop equals the order-preserving filter-map of the per-page step |
| ApiDocCrawler.CrawlAndParseKeepsOrder | src/api_doc_crawler.py:56-75 | the results are the parsed pages in crawl order; a page is missing iff its step dropped it, and later pages are still processed |
| ApiDocCrawler.FileNamesDistinct | src/api_doc_crawler.py:115-136 | `page_{i+1}.md`, `page_{i+1}_meta.json` and `index.json` never collide, across positions or kinds |
| ApiDocCrawler.JoinLines | src/api_doc_crawler.py:118-121 | joining succeeds iff the content is a list of strings or a string; then it is the newline join of the strings (or characters) |
| ApiDocCrawler.MarkdownLinesAreBlocks | src/api_doc_crawler.py:118-121 | splitting a markdown file on newlines gives back the content blocks when none holds a newline |
| ApiDocCrawler.Metadata | src/api_doc_crawler.py:124 | the metadata is the result with only `content` removed |
| ApiDocCrawler.WriteResult | src/api_doc_crawler.py:117-127 | one iteration adds the metadata file, and the markdown file exactly when the result has content |
| ApiDocCrawler.SavePages | src/api_doc_crawler.py:112-127 | the only way the loop stops early is a join failure at a position it reached |
| ApiDocCrawler.ManifestEntries | src/api_doc_crawler.py:132-137 | at most one entry per result (`ManifestSelects` says which, and what each holds) |
| ApiDocCrawler.EntryFor | src/api_doc_crawler.py:132-137 | a result gets a manifest entry iff it has content, named after its own position |
| ApiDocCrawler.FirstMissingUrl | src/api_doc_crawler.py:132-137 | finds the first result with content but no `url`, or shows there is none |
| ApiDocCrawler.SaveResults | src/api_doc_crawler.py:101-138 | a missing `url` leaves `index.json` truncated; a successful save writes the manifest of the results |
| ApiDocCrawler.WriteStep | src/api_doc_crawler.py:113-127 | one iteration extends the written state by the files of its position |
| ApiDocCrawler.SavePagesSpec | src/api_doc_crawler.py:112-127 | the loop succeeds iff every content joins, and then has written every result's files; otherwise it stops at the first failing position with that markdown file truncated on top of the earlier files |
| ApiDocCrawler.SaveSucceedsIff | src/api_doc_crawler.py:101-138 | the save succeeds iff every result with content has a joinable content and a `url` |
| ApiDocCrawler.SavedFiles | src/api_doc_crawler.py:113-127 | after success, each result has its metadata file and each result with content its markdown file with the joined text |
| ApiDocCrawler.SaveFrame | src/api_doc_crawler.py:110-138 | a successful save adds only those files and `index.json`; every other file is unchanged |
| ApiDocCrawler.JoinFailureStops | src/api_doc_crawler.py:113-131 | a join failure is at the first failing position, leaves that markdown file empty, writes nothing for later positions and leaves `index.json` as it was |
| ApiDocCrawler.ManifestSelects | src/api_doc_crawler.py:132-137 | the manifest lists exactly the results with content, in order, each with its original position's file name, its url, and `''` / `0` for a missing title / depth |
| ApiDocCrawler.ParsedResultsSave | src/api_doc_crawler.py:64-69 | whatever `crawl_and_parse` returns is saved without error |
| Config.NewCrawlerConfig | src/config.py:13-26 | the given depth, external flag and page budget, no keywords, weight 0.7 |
| Config.DefaultCrawlerConfig | src/config.py:13 | the defaults are depth 2, no external links, 25 pages, no keywords, weight 0.7 |
| Config.SetKeywords | src/config.py:28-37 | only keywords and weight change; the weight defaults to 0.7 |
| Config.SetKeywordsDefaultWeight | src/config.py:28-51 | setting keywords without a weight gives weight 0.7, and with a positive depth and page budget the result validates |
| Config.ValidateCrawler | src/config.py:39-51 | passes iff depth ≥ 1, pages ≥ 1 and 0 ≤ weight ≤ 1; otherwise the message of the first failing check in that order |
| Config.DefaultCrawlerConfigValid | src/config.py:13-26 | the default configuration validates |
| Config.SetKeywordsValidity | src/config.py:28-51 | from a valid configuration, setting keywords stays valid iff the new weight is in [0, 1] |
| Config.CrawlerValidationFailures | tests/test_config.py:43-64 | depth 0, pages 0 and weight 1.5 each fail with their message; depth 3 / pages 50 passes |
| Config.NewLLMConfig | src/config.py:73-83 | the given provider and temperature, with the non-empty generic instruction |
| Config.DefaultLLMConfig | src/config.py:73 | provider "openai/gpt-4o", temperature 0.1, the generic instruction |
| Config.SetCustomInstruction | src/config.py:122-129 | only the instruction changes |
| Config.ValidateLLM | src/config.py:131-143 | passes iff the provider is non-empty, 0 ≤ temperature ≤ 1 and the instruction is non-empty; otherwise the first failing check's message |
| Config.NewLLMConfigValidity | src/config.py:73-143 | a fresh configuration validates iff its provider is non-empty and its temperature in range |
| Config.SetCustomInstructionValidity | src/config.py:122-143 | from a valid configuration, a custom instruction keeps it valid iff it is non-empty |
| Config.LLMValidationFailures | tests/test_config.py:92-113 | empty provider, temperature 1.5 and empty instruction each fail with their message; the custom provider passes |
| Values.Get | src/url_filter.py:195-196 | `dict.get`: the stored value for a present key, the default otherwise |
| Values.PresentValue | src/content_index.py:140-141 | `record.get(field)` gives a value exactly when the key holds one, and it is that value; an absent key and one holding `None` both give `None` |
| Text.Lower | src/url_filter.py:204 | lower-casing keeps the length and works character by character |
| Text.LowerIdempotent | src/url_filter.py:204 | no ASCII capital is left, so lower-casing again changes nothing |
| Text.Find | src/url_filter.py:190 | the first position of the character, or -1 iff it does not occur |
| Text.RFind | src/url_filter.py:191 | the last position of the character, or -1 iff it does not occur |
| Text.Slice | src/url_filter.py:192 | Python slicing: the infix when the bounds are ordered and in range, empty when the end is not after the start |
| Text.Take | src/url_filter.py:94 | `s[:n]` is a prefix of length min(n, len) |
| Text.Strip | src/url_filter.py:195 | removes all leading and trailing whitespace and nothing else |
| Text.ContainsIffOccurs | src/url_filter.py:205 | the substring test holds iff the substring occurs at some position |
| Text.NatToStringInjective | src/api_doc_crawler.py:115 | distinct numbers print differently |
| Text.NatToString | src/api_doc_crawler.py:115 | the rendering of `i+1` in a file name is a non-empty run of decimal digits with no leading zero, at least two digits from 10 on |
| Text.Join | src/api_doc_crawler.py:121 | `"\n".join`: no parts give the empty text, one part gives itself, and the result starts with the first part; `Text.SplitJoin` recovers the parts |
| Text.SplitJoin | src/api_doc_crawler.py:121 | splitting a join of separator-free pieces gives the pieces back |
| Sequences.FilterMapSelects | src/url_filter.py:51-75 | the filter-map keeps, in order, exactly the elements the step maps to a value, and returns their positions |

## Left out

- `URLFilter.__init__` is not part of this model. It validates a `FilterLLMConfig`, which src/config.py does not define, and it builds an API client.
- The prompt text of `_create_inclusion_prompt` is the parameter `makePrompt`.
- The chat-completion call, `async`/`await` and reading `response.choices[0].message.content` are the parameter `chat`. It answers with the reply text or the message of any exception the call or the read raised.
- `json.loads` is the parameter `loads`. Only its answer on the empty text is fixed.
- Text.Lower: lower-cases ASCII letters only. Python's `str.lower` also maps other scripts, so answers written with non-ASCII capitals are outside the model.
- CrawlPage: every page is assumed to have a `url`, because the crawl always sets one. A page without it would raise `KeyError` at the progress message of either loop (src/url_filter.py:53, src/api_doc_crawler.py:59), outside the per-page `try`, and abort the whole loop.
- FilterCrawledResults: returns new page values. The source marks the dicts it is given in place, and that aliasing is not modelled.
- JoinLines: a dict as content would join its keys in insertion order. Maps have no order, so the model treats a dict like any other non-joinable content.
- SaveResults: `json.dump` cannot fail on the model's JSON values. Non-serialisable Python objects, `os.makedirs` and write errors are not modelled.
- `crawl_only` and `parse_only` only delegate to the crawler and the parser.
- The `__str__` methods of both configurations are left out.
- NewLLMConfig: the generic instruction stands for the long built-in text. The model only relies on it not being empty.
- ValidateCrawler: weight, depth and page budget are exact numbers. A NaN weight or temperature would pass the Python checks, and values of other types raise `TypeError`; floats and dynamic types are not modelled.
- ValidateLLM: the temperature is an exact real, as above.
- LoadIndex: an index file holding JSON that is not an object of records is not modelled.
- PathExists: a relative path exists when it is one of the directories the manager creates, spelled `extractions`, `metadata` (with or without a trailing `/`) or empty, or a key of the disk map. Other spellings of an existing path (`./extractions/x.json`, `metadata/../extractions`) and absolute file names, which `os.path.join` lets replace the base directory, are not modelled.
- CleanupStaleEntries: file names are strings or `null`. A stored file name of another JSON type would also make `os.path.join` raise, and is not modelled.
- The contents of SHA-256 are the parameter `sha256`. `ChangedContentOverwrites` and `DedupScenario` assume that the two contents hash differently, as a hypothesis rather than a proof.
- `datetime.now` is the parameter `now`.
- Logging (`print`), `save_index` and the `IOError` paths of the cache are left out. The cache only logs those errors.
- src/deep_crawler.py, src/llm_parser.py, src/main.py and crawl.py are not part of this model. The crawl is the list of pages it returned, and the parser is the parameter `parse`.
- The integration and demo scripts, and tests/test_env_loading.py, are not part of this model. They call methods and read configuration fields that the modelled sources do not define.

=== FILE: api_doc_crawler.dfy ===
/**
  The orchestrator (`ApiDocCrawler`): parse every crawled page into
  content blocks, then write one markdown file and one metadata file per
  result and an `index.json` manifest into the output directory.

  The crawl and the LLM parser are parameters: the crawl is the list of
  pages it returned, and `parse` turns the value of a page's `cleaned_html`
  key (`None` included) into content blocks or fails with a message. The output directory is a map from file
  name to what the file holds.
 */
module ApiDocCrawler {
  import opened Values
  import opened Text
  import opened Sequences
  import opened CrawlPage

  // ---------------------------------------------------------------------
  // crawl_and_parse
  // ---------------------------------------------------------------------

  /** What the parser makes of a page's cleaned HTML. */
  datatype ParseOutcome = Blocks(blocks: seq<string>) | ParseFailed(msg: string)

  /** A result as the rest of the pipeline sees it: a dict. */
  type ResultDict = map<string, Json>

  /** Each block as a JSON string. */
  function StrItems(blocks: seq<string>): (items: seq<Json>)
    ensures |items| == |blocks|
    ensures forall k :: 0 <= k < |items| ==> items[k] == Str(blocks[k])
  {
    seq(|blocks|, k requires 0 <= k < |blocks| => Str(blocks[k]))
  }

  /** The result dict `crawl_and_parse` builds for a parsed page. */
  function ParsedResult(url: string, title: Json, depth: Json, blocks: seq<string>): ResultDict {
    map["url" := Str(url), "title" := title, "depth" := depth, "content" := Arr(StrItems(blocks))]
  }

  /** A present string key as JSON: `null` for `None`. */
  function StrOrNull(s: Slot<string>): (j: Json)
    requires !s.Absent?
    ensures s.Holds? ==> j == Str(s.value)
    ensures s.HoldsNone? ==> j == Null
  {
    if s.Holds? then Str(s.value) else Null
  }

  /** A present integer key as JSON: `null` for `None`. */
  function IntOrNull(s: Slot<int>): (j: Json)
    requires !s.Absent?
    ensures s.Holds? ==> j == Int(s.value)
    ensures s.HoldsNone? ==> j == Null
  {
    if s.Holds? then Int(s.value) else Null
  }

  /** The content is a list of strings. */
  predicate IsStrList(content: Json) {
    content.Arr? && forall k :: 0 <= k < |content.items| ==> content.items[k].Str?
  }

  /** The shape of every result `crawl_and_parse` returns: exactly the
      keys url, title, depth and content, with a string URL, a string or
      `null` title, an integer or `null` depth and a list of strings as
      content. */
  predicate IsParsedResult(r: ResultDict) {
    && r.Keys == {"url", "title", "depth", "content"}
    && r["url"].Str?
    && (r["title"].Str? || r["title"].Null?)
    && (r["depth"].Int? || r["depth"].Null?)
    && IsStrList(r["content"])
  }

  /** One page of the loop. `result['cleaned_html']` goes to the parser,
      `None` included; a page without that key, one whose parse raises, and
      one without a `title` or `depth` key (read after the parse) are
      dropped. A title or depth holding `None` is copied as `null`. */
  function ParsePage(page: Page, parse: Option<string> -> ParseOutcome): (r: Option<ResultDict>)
    ensures r.Some? <==>
      && !page.cleanedHtml.Absent?
      && parse(PresentValue(page.cleanedHtml)).Blocks?
      && !page.title.Absent? && !page.depth.Absent?
    ensures r.Some? ==> IsParsedResult(r.value) && r.value["url"] == Str(page.url)
    ensures r.Some? ==>
      r.value == ParsedResult(page.url, StrOrNull(page.title), IntOrNull(page.depth),
                              parse(PresentValue(page.cleanedHtml)).blocks)
  {
    if page.cleanedHtml.Absent? then None
    else
      match parse(PresentValue(page.cleanedHtml))
      case ParseFailed(_) => None
      case Blocks(blocks) =>
        if page.title.Absent? || page.depth.Absent? then None
        else Some(ParsedResult(page.url, StrOrNull(page.title), IntOrNull(page.depth), blocks))
  }

  /** A crawled page whose metadata had no title (so `title` holds `None`)
      is still parsed and kept, with a `null` title. */
  lemma UntitledPageKept(page: Page, parse: Option<string> -> ParseOutcome)
    requires page.cleanedHtml.Holds? && parse(Some(page.cleanedHtml.value)).Blocks?
    requires page.title.HoldsNone? && page.depth.Holds?
    ensures ParsePage(page, parse).Some? && ParsePage(page, parse).value["title"] == Null
  {
  }

  /** `crawl_and_parse` over the pages the crawl returned; an empty crawl
      gives an empty list. */
  function CrawlAndParse(pages: seq<Page>, parse: Option<string> -> ParseOutcome): (results: seq<ResultDict>)
    ensures |pages| == 0 ==> results == []
    ensures |results| <= |pages|
    ensures forall k :: 0 <= k < |results| ==> IsParsedResult(results[k])
  {
    if |pages| == 0 then []
    else
      var rest := CrawlAndParse(pages[1..], parse);
      match ParsePage(pages[0], parse)
      case Some(r) => [r] + rest
      case None => rest
  }

  /** The loop is the order-preserving selection of the per-page step. */
  lemma {:induction false} CrawlAndParseIsFilterMap(pages: seq<Page>, parse: Option<string> -> ParseOutcome)
    ensures CrawlAndParse(pages, parse) == FilterMap(pages, (p: Page) => ParsePage(p, parse))
  {
    if |pages| > 0 {
      CrawlAndParseIsFilterMap(pages[1..], parse);
    }
  }

  /** The results are the parsed pages in crawl order, and a page is missing
      from them exactly when its parse step dropped it. */
  lemma CrawlAndParseKeepsOrder(pages: seq<Page>, parse: Option<string> -> ParseOutcome) returns (idx: seq<nat>)
    ensures var results := CrawlAndParse(pages, parse);
      && |idx| == |results|
      && StrictlyIncreasing(idx)
      && (forall k :: 0 <= k < |idx| ==> idx[k] < |pages| && ParsePage(pages[idx[k]], parse) == Some(results[k]))
      && (forall i :: 0 <= i < |pages| ==> (i in idx <==> ParsePage(pages[i], parse).Some?))
  {
    var f := (p: Page) => ParsePage(p, parse);
    CrawlAndParseIsFilterMap(pages, parse);
    idx := FilterMapSelects(pages, f);
    forall i | 0 <= i < |pages| && i in idx
      ensures ParsePage(pages[i], parse).Some?
    {
      var k :| 0 <= k < |idx| && idx[k] == i;
      assert f(pages[i]).Some?;
    }
  }

  // ---------------------------------------------------------------------
  // save_results
  // ---------------------------------------------------------------------

  /** One entry of `index.json`. */
  datatype ManifestEntry = ManifestEntry(url: Json, title: Json, depth: Json, filename: string)

  /** What a file in the output directory holds. `Truncated` is a file
      opened for writing whose write raised, so it was left empty. */
  datatype FileText =
    | Markdown(text: string)
    | MetaJson(fields: map<string, Json>)
    | Manifest(entries: seq<ManifestEntry>)
    | Truncated

  /** The output directory: file name to contents. */
  type OutputDir = map<string, FileText>

  /** Why `save_results` stopped: joining the content of the result at
      `position` raised `TypeError`, or a result with content had no `url`
      (`KeyError` while building the manifest). */
  datatype SaveError = JoinFailed(position: nat) | MissingUrl(position: nat)

  /** The directory after `save_results`, and the error it raised, if any. */
  datatype Saved = Saved(files: OutputDir, error: Option<SaveError>)

  const IndexName := "index.json"

  /** The markdown file of the result at `i` (counted from 0). */
  function MarkdownName(i: nat): string {
    "page_" + NatToString(i + 1) + ".md"
  }

  /** The metadata file of the result at `i` (counted from 0). */
  function MetaName(i: nat): string {
    "page_" + NatToString(i + 1) + "_meta.json"
  }

  /** Every position gets its own files, and no two kinds of file share a
      name. */
  lemma FileNamesDistinct(i: nat, j: nat)
    ensures MarkdownName(i) == MarkdownName(j) ==> i == j
    ensures MetaName(i) == MetaName(j) ==> i == j
    ensures MarkdownName(i) != MetaName(j)
    ensures MarkdownName(i) != IndexName && MetaName(i) != IndexName
  {
    if MarkdownName(i) == MarkdownName(j) {
      FramedInjective("page_", NatToString(i + 1), NatToString(j + 1), ".md");
      NatToStringInjective(i + 1, j + 1);
    }
    if MetaName(i) == MetaName(j) {
      FramedInjective("page_", NatToString(i + 1), NatToString(j + 1), "_meta.json");
      NatToStringInjective(i + 1, j + 1);
    }
    var md, meta := MarkdownName(i), MetaName(j);
    assert md[|md| - 1] == 'd' && meta[|meta| - 1] == 'n';
    assert md[0] == 'p' && MetaName(i)[0] == 'p' && IndexName[0] == 'i';
  }

  /** `result.get('content')` is truthy. */
  predicate HasContent(r: ResultDict) {
    Truthy(Get(r, "content", Null))
  }

  /** The content of a result, `None` when it has none. */
  function Content(r: ResultDict): Json {
    Get(r, "content", Null)
  }

  /** The strings of a list of strings. */
  function Strings(items: seq<Json>): (parts: seq<string>)
    requires forall k :: 0 <= k < |items| ==> items[k].Str?
    ensures |parts| == |items|
    ensures forall k :: 0 <= k < |parts| ==> items[k] == Str(parts[k])
  {
    seq(|items|, k requires 0 <= k < |items| => items[k].s)
  }

  /** Each character as a one-character string: what iterating a `str`
      yields. */
  function Chars(s: string): (parts: seq<string>)
    ensures |parts| == |s|
    ensures forall k :: 0 <= k < |parts| ==> parts[k] == [s[k]]
  {
    seq(|s|, k requires 0 <= k < |s| => [s[k]])
  }

  /** `"\n".join(content)`: a list of strings joins line by line and a
      string joins its characters; anything else raises `TypeError`. */
  function JoinLines(content: Json): (text: Option<string>)
    ensures text.Some? <==> IsStrList(content) || content.Str?
    ensures IsStrList(content) ==> text == Some(Join(Strings(content.items), '\n'))
    ensures content.Str? ==> text == Some(Join(Chars(content.s), '\n'))
  {
    match content
    case Str(s) => Some(Join(Chars(s), '\n'))
    case Arr(items) =>
      if forall k | 0 <= k < |items| :: items[k].Str? then Some(Join(Strings(items), '\n')) else None
    case _ => None
  }

  /** The markdown file's lines are the content blocks again, when no block
      holds a line break. */
  lemma MarkdownLinesAreBlocks(blocks: seq<string>)
    requires |blocks| > 0
    requires forall k :: 0 <= k < |blocks| ==> '\n' !in blocks[k]
    ensures JoinLines(Arr(StrItems(blocks))).Some?
    ensures Split(JoinLines(Arr(StrItems(blocks))).value, '\n') == blocks
  {
    var items := StrItems(blocks);
    assert IsStrList(Arr(items));
    var text := Join(Strings(items), '\n');
    assert JoinLines(Arr(items)) == Some(text);
    assert Strings(items) == blocks;
    SplitJoin(blocks, '\n');
  }

  /** The metadata of a result: everything but its content. */
  function Metadata(r: ResultDict): (meta: map<string, Json>)
    ensures meta.Keys == r.Keys - {"content"}
    ensures forall k :: k in meta ==> meta[k] == r[k]
  {
    r - {"content"}
  }

  /** The names written for the results before position `n`: every
      metadata file, and the markdown file of each result with content. */
  ghost function WrittenNames(results: seq<ResultDict>, n: nat): set<string>
    requires n <= |results|
  {
    (set j | 0 <= j < n :: MetaName(j)) + (set j | 0 <= j < n && HasContent(results[j]) :: MarkdownName(j))
  }

  /** `written` holds exactly the files of the results before position
      `n`, each with the contents `save_results` gives it. */
  ghost predicate WrittenUpTo(results: seq<ResultDict>, n: nat, written: OutputDir)
    requires n <= |results|
  {
    && written.Keys == WrittenNames(results, n)
    && (forall j | 0 <= j < n :: written[MetaName(j)] == MetaJson(Metadata(results[j])))
    && (forall j | 0 <= j < n && HasContent(results[j]) ::
          JoinLines(Content(results[j])).Some? && written[MarkdownName(j)] == Markdown(JoinLines(Content(results[j])).value))
  }

  /** The files one iteration adds for the result at `i` whose content,
      if any, joins: the markdown file when it has content, then the
      metadata file. */
  function WriteResult(results: seq<ResultDict>, i: nat, written: OutputDir): (written': OutputDir)
    requires i < |results|
    requires HasContent(results[i]) ==> JoinLines(Content(results[i])).Some?
    ensures written'.Keys == written.Keys + {MetaName(i)} + (if HasContent(results[i]) then {MarkdownName(i)} else {})
  {
    var r := results[i];
    var meta := MetaJson(Metadata(r));
    if HasContent(r) then written[MarkdownName(i) := Markdown(JoinLines(Content(r)).value)][MetaName(i) := meta]
    else written[MetaName(i) := meta]
  }

  /** The per-result loop of `save_results` from position `i` on; `written`
      holds the files written so far. */
  function SavePages(results: seq<ResultDict>, i: nat, written: OutputDir): (s: Saved)
    requires i <= |results|
    ensures s.error.Some? ==> s.error.value.JoinFailed? && i <= s.error.value.position < |results|
    decreases |results| - i
  {
    if i == |results| then Saved(written, None)
    else if HasContent(results[i]) && JoinLines(Content(results[i])).None? then
      Saved(written[MarkdownName(i) := Truncated], Some(JoinFailed(i)))
    else
      SavePages(results, i + 1, WriteResult(results, i, written))
  }

  /** The manifest entry of the result at `i`, if it has content. */
  function EntryFor(pos: nat, r: ResultDict): (e: Option<ManifestEntry>)
    ensures e.Some? <==> HasContent(r)
    ensures e.Some? ==> e.value.filename == MarkdownName(pos)
  {
    if HasContent(r) then
      Some(ManifestEntry(Get(r, "url", Null), Get(r, "title", Str("")), Get(r, "depth", Int(0)), MarkdownName(pos)))
    else None
  }

  /** Each result paired with its position. */
  function Enumerate(results: seq<ResultDict>): (pairs: seq<(nat, ResultDict)>)
    ensures |pairs| == |results|
    ensures forall i :: 0 <= i < |pairs| ==> pairs[i] == (i, results[i])
  {
    seq(|results|, i requires 0 <= i < |results| => (i, results[i]))
  }

  /** The entries of `index.json`: at most one per result (which ones is
      `ManifestSelects`). */
  function ManifestEntries(results: seq<ResultDict>): (entries: seq<ManifestEntry>)
    ensures |entries| <= |results|
  {
    FilterMap(Enumerate(results), (p: (nat, ResultDict)) => EntryFor(p.0, p.1))
  }

  /** The first result with content but no `url`, if any. */
  function FirstMissingUrl(results: seq<ResultDict>, from: nat): (i: Option<nat>)
    requires from <= |results|
    ensures i.Some? ==> from <= i.value < |results| && HasContent(results[i.value]) && "url" !in results[i.value]
    ensures i.Some? ==> forall j :: from <= j < i.value ==> !(HasContent(results[j]) && "url" !in results[j])
    ensures i.None? ==> forall j :: from <= j < |results| ==> !(HasContent(results[j]) && "url" !in results[j])
    decreases |results| - from
  {
    if from == |results| then None
    else if HasContent(results[from]) && "url" !in results[from] then Some(from)
    else FirstMissingUrl(results, from + 1)
  }

  /** `save_results` into a directory holding `dir`: the files the loop
      writes replace those of the same name. The loop stops at the first
      join that raises; the manifest is opened, and so emptied, before its
      entries are built, so a missing `url` leaves it truncated. */
  function SaveResults(results: seq<ResultDict>, dir: OutputDir): (s: Saved)
    ensures s.error.Some? && s.error.value.MissingUrl? ==>
      IndexName in s.files && s.files[IndexName] == Truncated
    ensures s.error.None? ==>
      IndexName in s.files && s.files[IndexName] == Manifest(ManifestEntries(results))
  {
    var pages := SavePages(results, 0, map[]);
    var files := dir + pages.files;
    if pages.error.Some? then Saved(files, pages.error)
    else
      match FirstMissingUrl(results, 0)
      case Some(i) => Saved(files[IndexName := Truncated], Some(MissingUrl(i)))
      case None => Saved(files[IndexName := Manifest(ManifestEntries(results))], None)
  }

  /** The content of every result before `n` joins. */
  predicate JoinsUpTo(results: seq<ResultDict>, n: nat)
    requires n <= |results|
  {
    forall j :: 0 <= j < n && HasContent(results[j]) ==> JoinLines(Content(results[j])).Some?
  }

  /** The names of position `i` are not among those written before it. */
  lemma FreshNames(results: seq<ResultDict>, i: nat)
    requires i < |results|
    ensures MetaName(i) !in WrittenNames(results, i) && MarkdownName(i) !in WrittenNames(results, i)
  {
    forall j | 0 <= j < i
      ensures MetaName(j) != MetaName(i) && MetaName(j) != MarkdownName(i)
      ensures MarkdownName(j) != MetaName(i) && MarkdownName(j) != MarkdownName(i)
    {
      FileNamesDistinct(i, j);
      FileNamesDistinct(j, i);
    }
  }

  /** Writing the files of the result at `i` extends the written state by
      one position. */
  lemma WriteStep(results: seq<ResultDict>, i: nat, written: OutputDir)
    requires i < |results|
    requires WrittenUpTo(results, i, written)
    requires HasContent(results[i]) ==> JoinLines(Content(results[i])).Some?
    ensures WrittenUpTo(results, i + 1, WriteResult(results, i, written))
  {
    FreshNames(results, i);
    FileNamesDistinct(i, i);
    WriteStepNames(results, i);
    WriteStepMeta(results, i, written);
    WriteStepMarkdown(results, i, written);
  }

  /** One position more adds its metadata file and, with content, its
      markdown file to the written names. */
  lemma WriteStepNames(results: seq<ResultDict>, i: nat)
    requires i < |results|
    ensures WrittenNames(results, i + 1) ==
      WrittenNames(results, i) + {MetaName(i)} + (if HasContent(results[i]) then {MarkdownName(i)} else {})
  {
    assert (set j | 0 <= j < i + 1 :: MetaName(j)) == (set j | 0 <= j < i :: MetaName(j)) + {MetaName(i)};
    assert (set j | 0 <= j < i + 1 && HasContent(results[j]) :: MarkdownName(j)) ==
      (set j | 0 <= j < i && HasContent(results[j]) :: MarkdownName(j)) + (if HasContent(results[i]) then {MarkdownName(i)} else {});
  }

  lemma WriteStepMeta(results: seq<ResultDict>, i: nat, written: OutputDir)
    requires i < |results|
    requires WrittenUpTo(results, i, written)
    requires HasContent(results[i]) ==> JoinLines(Content(results[i])).Some?
    requires MetaName(i) !in WrittenNames(results, i) && MarkdownName(i) != MetaName(i)
    ensures forall j | 0 <= j < i + 1 ::
      MetaName(j) in WriteResult(results, i, written) &&
      WriteResult(results, i, written)[MetaName(j)] == MetaJson(Metadata(results[j]))
  {
    var written' := WriteResult(results, i, written);
    forall j | 0 <= j < i + 1
      ensures MetaName(j) in written' && written'[MetaName(j)] == MetaJson(Metadata(results[j]))
    {
      if j < i {
        assert MetaName(j) in WrittenNames(results, i);
        FileNamesDistinct(i, j);
      }
    }
  }

  lemma WriteStepMarkdown(results: seq<ResultDict>, i: nat, written: OutputDir)
    requires i < |results|
    requires WrittenUpTo(results, i, written)
    requires HasContent(results[i]) ==> JoinLines(Content(results[i])).Some?
    requires MarkdownName(i) !in WrittenNames(results, i) && MarkdownName(i) != MetaName(i)
    ensures forall j | 0 <= j < i + 1 && HasContent(results[j]) ::
      && JoinLines(Content(results[j])).Some?
      && MarkdownName(j) in WriteResult(results, i, written)
      && WriteResult(results, i, written)[MarkdownName(j)] == Markdown(JoinLines(Content(results[j])).value)
  {
    var written' := WriteResult(results, i, written);
    forall j | 0 <= j < i + 1 && HasContent(results[j])
      ensures MarkdownName(j) in written' && written'[MarkdownName(j)] == Markdown(JoinLines(Content(results[j])).value)
    {
      if j < i {
        assert MarkdownName(j) in WrittenNames(results, i);
        FileNamesDistinct(j, i);
      }
    }
  }

  /** What the loop leaves behind, seen from the whole list: it either
      wrote every result's files and succeeded, or stopped at the first
      result whose content does not join, leaving that markdown file
      truncated on top of `before`, the files of the results before it. */
  ghost predicate LoopOutcome(results: seq<ResultDict>, s: Saved, before: OutputDir) {
    && (s.error.None? <==> JoinsUpTo(results, |results|))
    && (s.error.None? ==> WrittenUpTo(results, |results|, s.files))
    && (s.error.Some? ==>
          && s.error.value.JoinFailed?
          && s.error.value.position < |results|
          && HasContent(results[s.error.value.position])
          && JoinLines(Content(results[s.error.value.position])).None?
          && JoinsUpTo(results, s.error.value.position)
          && WrittenUpTo(results, s.error.value.position, before)
          && s.files == before[MarkdownName(s.error.value.position) := Truncated])
  }

  /** The loop from position `i`, given the files of the results before
      it, ends in `LoopOutcome`. */
  lemma {:induction false} SavePagesSpec(results: seq<ResultDict>, i: nat, written: OutputDir)
    returns (before: OutputDir)
    requires i <= |results|
    requires WrittenUpTo(results, i, written)
    requires JoinsUpTo(results, i)
    decreases |results| - i
    ensures LoopOutcome(results, SavePages(results, i, written), before)
  {
    if i == |results| {
      before := written;
      SavePagesDone(results, written);
    } else if HasContent(results[i]) && JoinLines(Content(results[i])).None? {
      before := written;
      SavePagesStops(results, i, written);
    } else {
      SavePagesStep(results, i, written);
      before := SavePagesSpec(results, i + 1, WriteResult(results, i, written));
    }
  }

  /** The loop at the end of the list succeeds with what was written. */
  lemma SavePagesDone(results: seq<ResultDict>, written: OutputDir)
    requires WrittenUpTo(results, |results|, written)
    requires JoinsUpTo(results, |results|)
    ensures LoopOutcome(results, SavePages(results, |results|, written), written)
  {
  }

  /** The loop at a result whose content does not join stops there. */
  lemma SavePagesStops(results: seq<ResultDict>, i: nat, written: OutputDir)
    requires i < |results|
    requires WrittenUpTo(results, i, written)
    requires JoinsUpTo(results, i)
    requires HasContent(results[i]) && JoinLines(Content(results[i])).None?
    ensures LoopOutcome(results, SavePages(results, i, written), written)
  {
    var s := SavePages(results, i, written);
    assert s == Saved(written[MarkdownName(i) := Truncated], Some(JoinFailed(i)));
    assert !JoinsUpTo(results, |results|);
  }

  /** A result whose content joins is written and the loop moves on. */
  lemma SavePagesStep(results: seq<ResultDict>, i: nat, written: OutputDir)
    requires i < |results|
    requires WrittenUpTo(results, i, written)
    requires JoinsUpTo(results, i)
    requires HasContent(results[i]) ==> JoinLines(Content(results[i])).Some?
    ensures WrittenUpTo(results, i + 1, WriteResult(results, i, written))
    ensures JoinsUpTo(results, i + 1)
    ensures SavePages(results, i, written) == SavePages(results, i + 1, WriteResult(results, i, written))
  {
    WriteStep(results, i, written);
  }

  /** `save_results` succeeds exactly when every result with content has a
      content that joins and a `url`. */
  lemma SaveSucceedsIff(results: seq<ResultDict>, dir: OutputDir)
    ensures SaveResults(results, dir).error.None? <==>
      forall i :: 0 <= i < |results| && HasContent(results[i]) ==>
        JoinLines(Content(results[i])).Some? && "url" in results[i]
  {
    var _ := SavePagesSpec(results, 0, map[]);
  }

  /** After a successful save every result has its metadata file and
      every result with content has its markdown file. */
  lemma SavedFiles(results: seq<ResultDict>, dir: OutputDir)
    requires SaveResults(results, dir).error.None?
    ensures var files := SaveResults(results, dir).files;
      && (forall i | 0 <= i < |results| :: MetaName(i) in files && files[MetaName(i)] == MetaJson(Metadata(results[i])))
      && (forall i | 0 <= i < |results| && HasContent(results[i]) ::
            && JoinLines(Content(results[i])).Some?
            && MarkdownName(i) in files && files[MarkdownName(i)] == Markdown(JoinLines(Content(results[i])).value))
  {
    var _ := SavePagesSpec(results, 0, map[]);
    var written := SavePages(results, 0, map[]).files;
    var files := (dir + written)[IndexName := Manifest(ManifestEntries(results))];
    assert SaveResults(results, dir).files == files;
    forall i | 0 <= i < |results|
      ensures MetaName(i) in files && files[MetaName(i)] == MetaJson(Metadata(results[i]))
    {
      assert MetaName(i) in written;
      FileNamesDistinct(i, i);
    }
    forall i | 0 <= i < |results| && HasContent(results[i])
      ensures JoinLines(Content(results[i])).Some?
      ensures MarkdownName(i) in files && files[MarkdownName(i)] == Markdown(JoinLines(Content(results[i])).value)
    {
      assert MarkdownName(i) in written;
      FileNamesDistinct(i, i);
    }
  }

  /** A successful save adds only the files of the results and the
      manifest; every other file of the directory is as it was. */
  lemma SaveFrame(results: seq<ResultDict>, dir: OutputDir)
    requires SaveResults(results, dir).error.None?
    ensures var files := SaveResults(results, dir).files;
      && files.Keys == dir.Keys + WrittenNames(results, |results|) + {IndexName}
      && (forall name | name in dir && name !in WrittenNames(results, |results|) && name != IndexName ::
            files[name] == dir[name])
  {
    var _ := SavePagesSpec(results, 0, map[]);
  }

  /** A failed join stops the loop at the first result whose content does
      not join: that markdown file is left empty, nothing at a later
      position is written, and `index.json` is not touched. */
  lemma JoinFailureStops(results: seq<ResultDict>, dir: OutputDir)
    requires SaveResults(results, dir).error.Some?
    requires SaveResults(results, dir).error.value.JoinFailed?
    ensures var s := SaveResults(results, dir); var p := s.error.value.position;
      && p < |results| && HasContent(results[p]) && JoinLines(Content(results[p])).None?
      && JoinsUpTo(results, p)
      && MarkdownName(p) in s.files && s.files[MarkdownName(p)] == Truncated
      && (forall j | p < j < |results| :: MetaName(j) in s.files <==> MetaName(j) in dir)
      && (IndexName in s.files <==> IndexName in dir)
      && (IndexName in dir ==> s.files[IndexName] == dir[IndexName])
  {
    var pages := SavePages(results, 0, map[]);
    var before := SavePagesSpec(results, 0, map[]);
    var s := SaveResults(results, dir);
    assert s == Saved(dir + pages.files, pages.error);
    var p := pages.error.value.position;
    assert pages.files.Keys == WrittenNames(results, p) + {MarkdownName(p)};
    LaterNamesUnwritten(results, p);
    NoPageIsIndex(results);
    forall j | p < j < |results|
      ensures MetaName(j) in s.files <==> MetaName(j) in dir
    {
      assert MetaName(j) !in pages.files;
    }
    assert IndexName !in pages.files by {
      FileNamesDistinct(p, p);
    }
  }

  /** The metadata files after position `p` are not among the names
      written before it, nor `p`'s markdown file. */
  lemma LaterNamesUnwritten(results: seq<ResultDict>, p: nat)
    requires p < |results|
    ensures forall j | p < j < |results| :: MetaName(j) !in WrittenNames(results, p) && MetaName(j) != MarkdownName(p)
  {
    forall j | p < j < |results|
      ensures MetaName(j) !in WrittenNames(results, p) && MetaName(j) != MarkdownName(p)
    {
      forall k | 0 <= k < p
        ensures MetaName(k) != MetaName(j) && MarkdownName(k) != MetaName(j)
      {
        FileNamesDistinct(k, j);
      }
      FileNamesDistinct(p, j);
    }
  }

  /** No page file is called `index.json`. */
  lemma NoPageIsIndex(results: seq<ResultDict>)
    ensures forall j | 0 <= j < |results| :: MetaName(j) != IndexName && MarkdownName(j) != IndexName
  {
    forall j | 0 <= j < |results|
      ensures MetaName(j) != IndexName && MarkdownName(j) != IndexName
    {
      FileNamesDistinct(j, j);
    }
  }

  /** The manifest lists the results with content in their order, each
      under its position's markdown file name, with `''` and `0` for a
      missing title and depth. */
  lemma ManifestSelects(results: seq<ResultDict>) returns (idx: seq<nat>)
    ensures var entries := ManifestEntries(results);
      && |idx| == |entries|
      && StrictlyIncreasing(idx)
      && (forall i :: 0 <= i < |results| ==> (i in idx <==> HasContent(results[i])))
      && (forall k :: 0 <= k < |idx| ==>
            && idx[k] < |results|
            && entries[k].filename == MarkdownName(idx[k])
            && entries[k].url == Get(results[idx[k]], "url", Null)
            && entries[k].title == Get(results[idx[k]], "title", Str(""))
            && entries[k].depth == Get(results[idx[k]], "depth", Int(0)))
  {
    var pairs := Enumerate(results);
    var f := (p: (nat, ResultDict)) => EntryFor(p.0, p.1);
    idx := FilterMapSelects(pairs, f);
    forall i | 0 <= i < |results| && i in idx
      ensures HasContent(results[i])
    {
      var k :| 0 <= k < |idx| && idx[k] == i;
      assert f(pairs[i]).Some?;
    }
    forall i | 0 <= i < |results| && HasContent(results[i])
      ensures i in idx
    {
      assert f(pairs[i]).Some?;
    }
  }

  /** What `crawl_and_parse` returns is always saved without error. */
  lemma ParsedResultsSave(pages: seq<Page>, parse: Option<string> -> ParseOutcome, dir: OutputDir)
    ensures SaveResults(CrawlAndParse(pages, parse), dir).error.None?
  {
    var results := CrawlAndParse(pages, parse);
    SaveSucceedsIff(results, dir);
  }
}

=== FILE: config.dfy ===
/**
  The two configuration records of the crawler and their validators:
  `CrawlerConfig` (crawl depth, page budget, keyword scorer) and
  `LLMConfig` (model, temperature, extraction instruction). A validator
  either passes or names the first setting that is out of range, as the
  `ValueError` it raises does.
 */
module Config {

  /** The outcome of `validate()`: nothing, or the message of the
      `ValueError`. */
  datatype Validation = Valid | Invalid(msg: string)

  // ---------------------------------------------------------------------
  // CrawlerConfig
  // ---------------------------------------------------------------------

  datatype CrawlerConfig = CrawlerConfig(
    maxDepth: int,
    includeExternal: bool,
    maxPages: int,
    keywords: seq<string>,
    weight: real)

  const DefaultWeight: real := 0.7

  const DepthMessage := "max_depth must be at least 1"
  const PagesMessage := "max_pages must be at least 1"
  const WeightMessage := "weight must be between 0 and 1"

  /** `CrawlerConfig(max_depth, include_external, max_pages)`: no keywords
      and the default scorer weight. */
  function NewCrawlerConfig(maxDepth: int, includeExternal: bool, maxPages: int): (c: CrawlerConfig)
    ensures c.maxDepth == maxDepth && c.includeExternal == includeExternal && c.maxPages == maxPages
    ensures c.keywords == [] && c.weight == DefaultWeight
  {
    CrawlerConfig(maxDepth, includeExternal, maxPages, [], DefaultWeight)
  }

  /** `CrawlerConfig()`. */
  function DefaultCrawlerConfig(): (c: CrawlerConfig)
    ensures c == CrawlerConfig(2, false, 25, [], 0.7)
  {
    NewCrawlerConfig(2, false, 25)
  }

  /** `set_keywords`: replaces the keywords and the weight, nothing else.
      The weight defaults to 0.7, so a call without it resets an earlier
      weight. */
  function SetKeywords(c: CrawlerConfig, keywords: seq<string>, weight: real := DefaultWeight): (c': CrawlerConfig)
    ensures c'.keywords == keywords && c'.weight == weight
    ensures c'.maxDepth == c.maxDepth && c'.includeExternal == c.includeExternal && c'.maxPages == c.maxPages
  {
    c.(keywords := keywords, weight := weight)
  }

  /** The configuration is usable: some depth, some pages, and a weight in
      the unit interval. */
  predicate CrawlerSettingsInRange(c: CrawlerConfig) {
    c.maxDepth >= 1 && c.maxPages >= 1 && 0.0 <= c.weight <= 1.0
  }

  /** `CrawlerConfig.validate`: the depth is checked first, then the page
      budget, then the weight. */
  function ValidateCrawler(c: CrawlerConfig): (v: Validation)
    ensures v.Valid? <==> CrawlerSettingsInRange(c)
    ensures c.maxDepth < 1 ==> v == Invalid(DepthMessage)
    ensures c.maxDepth >= 1 && c.maxPages < 1 ==> v == Invalid(PagesMessage)
    ensures c.maxDepth >= 1 && c.maxPages >= 1 && !(0.0 <= c.weight <= 1.0) ==> v == Invalid(WeightMessage)
  {
    if c.maxDepth < 1 then Invalid(DepthMessage)
    else if c.maxPages < 1 then Invalid(PagesMessage)
    else if c.weight < 0.0 || c.weight > 1.0 then Invalid(WeightMessage)
    else Valid
  }

  /** The defaults validate. */
  lemma DefaultCrawlerConfigValid()
    ensures ValidateCrawler(DefaultCrawlerConfig()) == Valid
  {
  }

  /** Setting keywords keeps a valid configuration valid exactly when the
      new weight lies in the unit interval; the keywords themselves are
      never checked. */
  lemma SetKeywordsValidity(c: CrawlerConfig, keywords: seq<string>, weight: real)
    requires ValidateCrawler(c) == Valid
    ensures ValidateCrawler(SetKeywords(c, keywords, weight)).Valid? <==> 0.0 <= weight <= 1.0
  {
  }

  /** `set_keywords(keywords)` without a weight, as the command line calls
      it: the weight goes back to 0.7 whatever it was, and a configuration
      with a valid depth and page budget validates. */
  lemma SetKeywordsDefaultWeight(c: CrawlerConfig, keywords: seq<string>)
    requires c.maxDepth >= 1 && c.maxPages >= 1
    ensures SetKeywords(c, keywords).weight == 0.7
    ensures SetKeywords(c, keywords).keywords == keywords
    ensures ValidateCrawler(SetKeywords(c, keywords)) == Valid
  {
  }

  /** Each setting on its own makes validation fail, with its message. */
  lemma CrawlerValidationFailures()
    ensures ValidateCrawler(NewCrawlerConfig(0, false, 25)) == Invalid(DepthMessage)
    ensures ValidateCrawler(NewCrawlerConfig(2, false, 0)) == Invalid(PagesMessage)
    ensures ValidateCrawler(DefaultCrawlerConfig().(weight := 1.5)) == Invalid(WeightMessage)
    ensures ValidateCrawler(NewCrawlerConfig(3, true, 50)) == Valid
  {
  }

  // ---------------------------------------------------------------------
  // LLMConfig
  // ---------------------------------------------------------------------

  datatype LLMConfig = LLMConfig(provider: string, temperature: real, instruction: string)

  /** Stands for the long built-in extraction instruction; the model only
      relies on it not being empty. */
  const GenericInstruction := "Extract the complete API documentation information."

  const ProviderMessage := "provider must not be empty"
  const TemperatureMessage := "temperature must be between 0 and 1"
  const InstructionMessage := "instruction must not be empty"

  /** `LLMConfig(provider, temperature)`: starts with the generic
      instruction. */
  function NewLLMConfig(provider: string, temperature: real): (c: LLMConfig)
    ensures c.provider == provider && c.temperature == temperature
    ensures c.instruction == GenericInstruction && |c.instruction| > 0
  {
    LLMConfig(provider, temperature, GenericInstruction)
  }

  /** `LLMConfig()`. */
  function DefaultLLMConfig(): (c: LLMConfig)
    ensures c.provider == "openai/gpt-4o" && c.temperature == 0.1 && c.instruction == GenericInstruction
  {
    NewLLMConfig("openai/gpt-4o", 0.1)
  }

  /** `set_custom_instruction`: replaces the instruction, nothing else. */
  function SetCustomInstruction(c: LLMConfig, instruction: string): (c': LLMConfig)
    ensures c'.instruction == instruction
    ensures c'.provider == c.provider && c'.temperature == c.temperature
  {
    c.(instruction := instruction)
  }

  /** The configuration is usable: a provider, a temperature in the unit
      interval and an instruction. */
  predicate LLMSettingsInRange(c: LLMConfig) {
    |c.provider| > 0 && 0.0 <= c.temperature <= 1.0 && |c.instruction| > 0
  }

  /** `LLMConfig.validate`: the provider is checked first, then the
      temperature, then the instruction. */
  function ValidateLLM(c: LLMConfig): (v: Validation)
    ensures v.Valid? <==> LLMSettingsInRange(c)
    ensures c.provider == "" ==> v == Invalid(ProviderMessage)
    ensures c.provider != "" && !(0.0 <= c.temperature <= 1.0) ==> v == Invalid(TemperatureMessage)
    ensures c.provider != "" && 0.0 <= c.temperature <= 1.0 && c.instruction == "" ==> v == Invalid(InstructionMessage)
  {
    if |c.provider| == 0 then Invalid(ProviderMessage)
    else if c.temperature < 0.0 || c.temperature > 1.0 then Invalid(TemperatureMessage)
    else if |c.instruction| == 0 then Invalid(InstructionMessage)
    else Valid
  }

  /** A fresh configuration validates exactly when its provider is not
      empty and its temperature is in range: the generic instruction is
      never empty. */
  lemma NewLLMConfigValidity(provider: string, temperature: real)
    ensures ValidateLLM(NewLLMConfig(provider, temperature)).Valid? <==> provider != "" && 0.0 <= temperature <= 1.0
  {
  }

  /** A custom instruction keeps a valid configuration valid exactly when
      it is not empty. */
  lemma SetCustomInstructionValidity(c: LLMConfig, instruction: string)
    requires ValidateLLM(c) == Valid
    ensures ValidateLLM(SetCustomInstruction(c, instruction)).Valid? <==> instruction != ""
  {
  }

  /** Each setting on its own makes validation fail, with its message. */
  lemma LLMValidationFailures()
    ensures ValidateLLM(NewLLMConfig("", 0.1)) == Invalid(ProviderMessage)
    ensures ValidateLLM(NewLLMConfig("openai/gpt-4o", 1.5)) == Invalid(TemperatureMessage)
    ensures ValidateLLM(SetCustomInstruction(DefaultLLMConfig(), "")) == Invalid(InstructionMessage)
    ensures ValidateLLM(NewLLMConfig("anthropic/claude-3", 0.5)) == Valid
  {
  }
}

=== FILE: content_index.dfy ===
/**
  The content-addressed deduplication cache (`ContentIndexManager`): an
  index from URL to the hash of the cleaned HTML last sent to the LLM,
  together with the files that hold that extraction and its metadata.

  The index is a map from URL to `Record`; the files under the cache's base
  directory are a map from relative path to what `json.load` would read
  back. SHA-256 is the parameter `sha256` (its hex digest), and the clock
  is the parameter `now` (an ISO-8601 timestamp).
 */
module ContentIndex {
  import opened Values
  import opened Text
  import opened Sets

  /** One entry of `content_index.json`. The hash, timestamp and URL hash
      are only ever read with `get`, which does not tell a missing key from
      one holding `null`, so each is `None` in both cases. The two file
      names are also joined into paths, where `null` raises, so each is a
      `Slot` that keeps the difference. `otherKeys` records whether the
      object has a key the five fields do not show (a key outside them, or
      one of the three `Option` fields holding `null`), which is what makes
      an object with no readable field still non-empty. */
  datatype Record = Record(
    contentHash: Option<string>,
    lastExtracted: Option<string>,
    extractionFile: Slot<string>,
    metadataFile: Slot<string>,
    urlHash: Option<string>,
    otherKeys: bool)

  /** The record is the empty dict `{}`, the only record Python treats as
      false. */
  predicate IsEmptyRecord(r: Record) {
    r == Record(None, None, Absent, Absent, None, false)
  }

  /** The outcome of an operation that may raise: its value, or the message
      of the exception that escapes it. */
  datatype Attempt<+T> = Done(value: T) | Failed(msg: string)

  type Index = map<string, Record>

  /** What `json.load` reads back from a file opened as UTF-8: a document;
      an error the readers catch (unparsable JSON, an unreadable file); or
      bytes that are not UTF-8, whose `UnicodeDecodeError` is neither a
      `JSONDecodeError` nor an `IOError` and so is not caught. */
  datatype FileBody = Doc(value: Json) | Corrupt | NotUtf8(msg: string)

  /** The files under the base directory, keyed by their relative path. */
  type Disk = map<string, FileBody>

  datatype Cache = Cache(index: Index, disk: Disk)

  /** The directories the manager creates when it is constructed, as a
      relative path can name them: the base directory itself and its two
      subdirectories. */
  const Directories: set<string> := {"", "extractions", "extractions/", "metadata", "metadata/"}

  /** `os.path.exists(os.path.join(base_dir, rel))` for a relative path
      spelled the way the files are keyed: one of the directories the
      manager creates, or a file on the disk. */
  predicate PathExists(disk: Disk, rel: string) {
    rel in Directories || rel in disk
  }

  /** `record.get(field, '')` for a field that does not hold `null`. */
  function FileName(field: Slot<string>): string {
    if field.Holds? then field.value else ""
  }

  /** The message of the `TypeError` that `os.path.join` raises, from its
      argument-type check, when a component is `None`. */
  const PathTypeMessage := "join() argument must be str, bytes, or os.PathLike object, not 'NoneType'"

  /** A file-name field holds `null`, so joining it into a path raises. */
  predicate NullFileName(r: Record) {
    r.extractionFile.HoldsNone? || r.metadataFile.HoldsNone?
  }

  /** Some record of the index has a file-name field holding `null`. */
  predicate HasNullFileName(index: Index) {
    exists u :: u in index && NullFileName(index[u])
  }

  /** `calculate_url_hash`: the first 12 characters of the URL's SHA-256
      hex digest. */
  function CalculateUrlHash(sha256: string -> string, url: string): (h: string)
    ensures h <= sha256(url)
    ensures |h| == if |sha256(url)| < 12 then |sha256(url)| else 12
  {
    Take(sha256(url), 12)
  }

  /** The extraction file of a URL hash, relative to the base directory. */
  function ExtractionFile(urlHash: string): string {
    "extractions/" + urlHash + ".json"
  }

  /** The metadata file of a URL hash, relative to the base directory. */
  function MetadataFile(urlHash: string): string {
    "metadata/" + urlHash + "_meta.json"
  }

  /** `get_url_record`: the stored record, if any. */
  function GetUrlRecord(index: Index, url: string): (r: Option<Record>)
    ensures r.Some? <==> url in index
    ensures r.Some? ==> r.value == index[url]
  {
    if url in index then Some(index[url]) else None
  }

  /** `if not self.get_url_record(url)` is false: a record exists and is not
      the empty dict. */
  predicate HasRecord(index: Index, url: string) {
    url in index && !IsEmptyRecord(index[url])
  }

  /** `is_content_changed`: a URL without a record counts as changed;
      otherwise the content changed when the stored hash (possibly absent)
      differs from the new one. */
  function IsContentChanged(index: Index, url: string, newContentHash: string): (changed: bool)
    ensures !HasRecord(index, url) ==> changed
    ensures HasRecord(index, url) ==> (changed <==> index[url].contentHash != Some(newContentHash))
  {
    var record := GetUrlRecord(index, url);
    if record.None? || IsEmptyRecord(record.value) then true
    else record.value.contentHash != Some(newContentHash)
  }

  /** The answer of `should_process_with_llm`. */
  datatype Decision = Decision(process: bool, reason: string)

  const NewUrlReason := "New URL - not in index"
  const ChangedReason := "Content has changed since last extraction"
  const UnchangedReason := "Content unchanged - using cached extraction"

  /** `should_process_with_llm`: send the page to the LLM unless the stored
      hash equals the SHA-256 of the cleaned HTML. */
  function ShouldProcessWithLlm(c: Cache, url: string, cleanedHtml: string, sha256: string -> string): (d: Decision)
    ensures d.reason == NewUrlReason <==> !HasRecord(c.index, url)
    ensures d.reason == ChangedReason <==>
              HasRecord(c.index, url) && c.index[url].contentHash != Some(sha256(cleanedHtml))
    ensures !d.process <==> HasRecord(c.index, url) && c.index[url].contentHash == Some(sha256(cleanedHtml))
    ensures !d.process <==> d.reason == UnchangedReason
  {
    var newContentHash := sha256(cleanedHtml);
    if GetUrlRecord(c.index, url).None? || IsEmptyRecord(c.index[url]) then
      Decision(true, NewUrlReason)
    else if IsContentChanged(c.index, url, newContentHash) then
      Decision(true, ChangedReason)
    else
      Decision(false, UnchangedReason)
  }

  /** The field names a readable file: it is present, non-empty, exists and
      parses. */
  predicate Resolves(disk: Disk, field: Option<string>) {
    field.Some? && field.value != "" && field.value in disk && disk[field.value].Doc?
  }

  /** The field names an existing file whose bytes are not UTF-8. */
  predicate Undecodable(disk: Disk, field: Option<string>) {
    field.Some? && field.value != "" && field.value in disk && disk[field.value].NotUtf8?
  }

  /** The shared body of the two cached-file readers; `field` is the
      reader's `record.get(...)`. */
  function ReadRecordFile(c: Cache, url: string, field: Record -> Option<string>): (doc: Attempt<Option<Json>>)
    ensures doc.Failed? <==> HasRecord(c.index, url) && Undecodable(c.disk, field(c.index[url]))
    ensures doc.Failed? ==> doc.msg == c.disk[field(c.index[url]).value].msg
    ensures doc.Done? && doc.value.Some? <==> HasRecord(c.index, url) && Resolves(c.disk, field(c.index[url]))
    ensures doc.Done? && doc.value.Some? ==> doc.value.value == c.disk[field(c.index[url]).value].value
  {
    var record := GetUrlRecord(c.index, url);
    if record.None? || IsEmptyRecord(record.value) then Done(None)
    else
      match field(record.value)
      case None => Done(None)
      case Some(file) =>
        if file == "" then Done(None)
        else if file !in c.disk then Done(None)
        else match c.disk[file]
          case Doc(j) => Done(Some(j))
          case Corrupt => Done(None)
          case NotUtf8(msg) => Failed(msg)
  }

  /** `get_cached_extraction`: the stored extraction document, or `None`
      when the record, its file name, the file or its JSON is missing; a
      file that is not UTF-8 makes it raise. */
  function GetCachedExtraction(c: Cache, url: string): (doc: Attempt<Option<Json>>)
    ensures doc.Failed? <==> HasRecord(c.index, url) && Undecodable(c.disk, PresentValue(c.index[url].extractionFile))
    ensures doc.Done? && doc.value.Some? <==>
              HasRecord(c.index, url) && Resolves(c.disk, PresentValue(c.index[url].extractionFile))
    ensures doc.Done? && doc.value.Some? ==> doc.value.value == c.disk[c.index[url].extractionFile.value].value
  {
    ReadRecordFile(c, url, (r: Record) => PresentValue(r.extractionFile))
  }

  /** `get_cached_metadata`: the stored metadata document, or `None` when
      the record, its file name, the file or its JSON is missing; a file
      that is not UTF-8 makes it raise. */
  function GetCachedMetadata(c: Cache, url: string): (doc: Attempt<Option<Json>>)
    ensures doc.Failed? <==> HasRecord(c.index, url) && Undecodable(c.disk, PresentValue(c.index[url].metadataFile))
    ensures doc.Done? && doc.value.Some? <==>
              HasRecord(c.index, url) && Resolves(c.disk, PresentValue(c.index[url].metadataFile))
    ensures doc.Done? && doc.value.Some? ==> doc.value.value == c.disk[c.index[url].metadataFile.value].value
  {
    ReadRecordFile(c, url, (r: Record) => PresentValue(r.metadataFile))
  }

  /** The record `update_url_record` stores for a URL. */
  function FreshRecord(sha256: string -> string, url: string, contentHash: string, now: string): Record {
    var h := CalculateUrlHash(sha256, url);
    Record(Some(contentHash), Some(now), Holds(ExtractionFile(h)), Holds(MetadataFile(h)), Some(h), false)
  }

  /** The extraction and metadata files never share a path. */
  lemma FilesDistinct(h: string, g: string)
    ensures ExtractionFile(h) != MetadataFile(g)
  {
    assert ExtractionFile(h)[0] == 'e';
    assert MetadataFile(g)[0] == 'm';
  }

  /** `update_url_record`, the one operation that changes the cache: it
      overwrites the URL's record and writes the documents it is given
      (what it does to the files is `UpdateWritesOnlyItsFiles`). */
  function UpdateUrlRecord(
    c: Cache, sha256: string -> string, url: string, contentHash: string,
    extractionData: Option<Json>, metadata: Option<Json>, now: string): (c': Cache)
    ensures var h := CalculateUrlHash(sha256, url);
      url in c'.index &&
      c'.index[url] == Record(Some(contentHash), Some(now), Holds(ExtractionFile(h)), Holds(MetadataFile(h)), Some(h), false)
    ensures c'.index.Keys == c.index.Keys + {url}
    ensures forall u :: u in c.index && u != url ==> c'.index[u] == c.index[u]
    ensures |c'.index| == if url in c.index then |c.index| else |c.index| + 1
  {
    var h := CalculateUrlHash(sha256, url);
    var index' := c.index[url := FreshRecord(sha256, url, contentHash, now)];
    Cache(index', WriteDoc(WriteDoc(c.disk, ExtractionFile(h), extractionData), MetadataFile(h), metadata))
  }

  /** The files after an update: each given document is at its path, a
      missing one leaves its path as it was, and every other file is
      unchanged; nothing else is created. */
  lemma UpdateWritesOnlyItsFiles(
    c: Cache, sha256: string -> string, url: string, contentHash: string,
    extractionData: Option<Json>, metadata: Option<Json>, now: string)
    ensures var disk', h := UpdateUrlRecord(c, sha256, url, contentHash, extractionData, metadata, now).disk,
                            CalculateUrlHash(sha256, url);
      && (extractionData.Some? ==> ExtractionFile(h) in disk' && disk'[ExtractionFile(h)] == Doc(extractionData.value))
      && (metadata.Some? ==> MetadataFile(h) in disk' && disk'[MetadataFile(h)] == Doc(metadata.value))
      && (extractionData.None? ==> (ExtractionFile(h) in disk' <==> ExtractionFile(h) in c.disk))
      && (metadata.None? ==> (MetadataFile(h) in disk' <==> MetadataFile(h) in c.disk))
      && (forall p :: p in c.disk && p != ExtractionFile(h) && p != MetadataFile(h) ==> p in disk' && disk'[p] == c.disk[p])
      && (forall p :: p in disk' ==> p in c.disk || p == ExtractionFile(h) || p == MetadataFile(h))
  {
    var h := CalculateUrlHash(sha256, url);
    FilesDistinct(h, h);
  }

  /** `json.dump` of an optional document to a path: `None` writes nothing,
      a document replaces the file at that path and no other. */
  function WriteDoc(disk: Disk, path: string, doc: Option<Json>): (disk': Disk)
    ensures doc.Some? ==> path in disk' && disk'[path] == Doc(doc.value)
    ensures doc.None? ==> disk' == disk
    ensures disk'.Keys <= disk.Keys + {path}
    ensures forall p :: p in disk && p != path ==> p in disk' && disk'[p] == disk[p]
  {
    if doc.Some? then disk[path := Doc(doc.value)] else disk
  }

  /** The result of `get_cache_stats`. */
  datatype CacheStats = CacheStats(
    totalUrls: nat,
    extractionFiles: nat,
    metadataFiles: nat,
    indexFileExists: bool,
    baseDirectory: string)

  /** The URLs whose record names an extraction file that exists. */
  function WithExtractionFile(c: Cache): set<string> {
    set u | u in c.index && PathExists(c.disk, FileName(c.index[u].extractionFile))
  }

  /** The URLs whose record names a metadata file that exists. */
  function WithMetadataFile(c: Cache): set<string> {
    set u | u in c.index && PathExists(c.disk, FileName(c.index[u].metadataFile))
  }

  /** `get_cache_stats`: counts over the index, read-only; it raises when
      a file-name field holds `null`. Whether the index file exists and the
      base directory are inputs. */
  function GetCacheStats(c: Cache, indexFileExists: bool, baseDirectory: string): (s: Attempt<CacheStats>)
    ensures s.Failed? <==> HasNullFileName(c.index)
    ensures s.Failed? ==> s.msg == PathTypeMessage
    ensures s.Done? ==> s.value.totalUrls == |c.index|
    ensures s.Done? ==> s.value.extractionFiles <= s.value.totalUrls && s.value.metadataFiles <= s.value.totalUrls
    ensures s.Done? ==> s.value.extractionFiles == |WithExtractionFile(c)| && s.value.metadataFiles == |WithMetadataFile(c)|
    ensures s.Done? ==> s.value.indexFileExists == indexFileExists && s.value.baseDirectory == baseDirectory
  {
    if HasNullFileName(c.index) then Failed(PathTypeMessage)
    else
      SubsetCardinality(WithExtractionFile(c), c.index.Keys);
      SubsetCardinality(WithMetadataFile(c), c.index.Keys);
      Done(CacheStats(|c.index|, |WithExtractionFile(c)|, |WithMetadataFile(c)|, indexFileExists, baseDirectory))
  }

  /** A record is stale when neither of its files exists. */
  predicate IsStale(disk: Disk, r: Record) {
    !PathExists(disk, FileName(r.extractionFile)) && !PathExists(disk, FileName(r.metadataFile))
  }

  /** The result of `cleanup_stale_entries`: the cache afterwards, the count
      it returns, and whether it rewrote the index file. */
  datatype CleanupResult = CleanupResult(cache: Cache, removed: nat, indexSaved: bool)

  /** `cleanup_stale_entries`: drop exactly the stale records, keep every
      other record as it is, and report how many were dropped. A file-name
      field holding `null` makes the scan raise before anything is removed,
      so the cache stays as it was. */
  function CleanupStaleEntries(c: Cache): (res: Attempt<CleanupResult>)
    ensures res.Failed? <==> HasNullFileName(c.index)
    ensures res.Failed? ==> res.msg == PathTypeMessage
    ensures res.Done? ==> res.value.cache.disk == c.disk
    ensures res.Done? ==> res.value.cache.index.Keys <= c.index.Keys
    ensures res.Done? ==> forall u :: u in c.index ==> (u in res.value.cache.index <==> !IsStale(c.disk, c.index[u]))
    ensures res.Done? ==> forall u :: u in res.value.cache.index ==> res.value.cache.index[u] == c.index[u]
    ensures res.Done? ==> res.value.removed == |c.index| - |res.value.cache.index|
    ensures res.Done? ==> (res.value.indexSaved <==> res.value.removed > 0)
  {
    if HasNullFileName(c.index) then Failed(PathTypeMessage)
    else
      var stale := set u | u in c.index && IsStale(c.disk, c.index[u]);
      var kept := c.index - stale;
      assert kept.Keys == c.index.Keys - stale;
      SubsetCardinality(stale, c.index.Keys);
      Done(CleanupResult(Cache(kept, c.disk), |stale|, |stale| > 0))
  }

  /** What the index file holds when the manager starts: nothing; bytes the
      loader's handler catches (unparsable JSON, an unreadable file); bytes
      that are not UTF-8, whose `UnicodeDecodeError` it does not catch; or
      an index. */
  datatype IndexFile = Missing | Unreadable | IndexNotUtf8(msg: string) | Loaded(records: Index)

  /** `load_index`: a missing, unreadable or unparsable index degrades to
      an empty index; an index that is not UTF-8 makes it raise, and with
      it the manager's constructor. */
  function LoadIndex(file: IndexFile): (index: Attempt<Index>)
    ensures file.Loaded? ==> index == Done(file.records)
    ensures file.Missing? || file.Unreadable? ==> index == Done(map[])
    ensures file.IndexNotUtf8? ==> index == Failed(file.msg)
  {
    match file
    case Loaded(records) => Done(records)
    case IndexNotUtf8(msg) => Failed(msg)
    case _ => Done(map[])
  }

  // ---------------------------------------------------------------------
  // Properties relating the operations
  // ---------------------------------------------------------------------

  /** Every record is one `update_url_record` could have written: its files
      are named after the URL's hash. */
  ghost predicate WellFormed(c: Cache, sha256: string -> string) {
    forall u :: u in c.index ==>
      var h := CalculateUrlHash(sha256, u);
      && c.index[u].contentHash.Some?
      && c.index[u].extractionFile == Holds(ExtractionFile(h))
      && c.index[u].metadataFile == Holds(MetadataFile(h))
      && c.index[u].urlHash == Some(h)
  }

  /** The updates keep the index well formed, so no URL ever has two
      records and all updates of one URL share its files. */
  lemma UpdatePreservesWellFormed(
    c: Cache, sha256: string -> string, url: string, contentHash: string,
    extractionData: Option<Json>, metadata: Option<Json>, now: string)
    requires WellFormed(c, sha256)
    ensures WellFormed(UpdateUrlRecord(c, sha256, url, contentHash, extractionData, metadata, now), sha256)
  {
  }

  /** Cleanup succeeds on a well-formed index, whose file names are never
      `null`, and keeps it well formed. */
  lemma CleanupPreservesWellFormed(c: Cache, sha256: string -> string)
    requires WellFormed(c, sha256)
    ensures CleanupStaleEntries(c).Done?
    ensures WellFormed(CleanupStaleEntries(c).value.cache, sha256)
  {
    assert !HasNullFileName(c.index);
  }

  /** In a well-formed index, the new-URL answer is given exactly for URLs
      absent from the index. */
  lemma NewUrlIffAbsent(c: Cache, sha256: string -> string, url: string, cleanedHtml: string)
    requires WellFormed(c, sha256)
    ensures ShouldProcessWithLlm(c, url, cleanedHtml, sha256).reason == NewUrlReason <==> url !in c.index
  {
    if url in c.index {
      assert c.index[url].contentHash.Some?;
    }
  }

  /** `should_process_with_llm` asks for processing exactly when
      `is_content_changed` reports the content's hash as changed. */
  lemma ShouldProcessAgreesWithIsContentChanged(c: Cache, url: string, cleanedHtml: string, sha256: string -> string)
    ensures ShouldProcessWithLlm(c, url, cleanedHtml, sha256).process
        == IsContentChanged(c.index, url, sha256(cleanedHtml))
  {
  }

  /** A stored object whose keys the record does not show (unknown keys,
      or `null` values) is still a non-empty dict: the URL is known, and
      since there is no stored hash its content counts as changed. */
  lemma UnreadableRecordIsChanged(c: Cache, url: string, cleanedHtml: string, sha256: string -> string)
    requires url in c.index && c.index[url] == Record(None, None, Absent, Absent, None, true)
    ensures ShouldProcessWithLlm(c, url, cleanedHtml, sha256) == Decision(true, ChangedReason)
    ensures IsContentChanged(c.index, url, sha256(cleanedHtml))
  {
  }

  /** The fallback of `load_index`: when the index file is missing or
      cannot be read, every URL is new and the statistics count no URL,
      so the cache degrades to recomputing everything. */
  lemma LoadFallbackRecomputes(
    file: IndexFile, disk: Disk, url: string, cleanedHtml: string, sha256: string -> string,
    indexFileExists: bool, baseDirectory: string)
    requires file.Missing? || file.Unreadable?
    ensures LoadIndex(file).Done?
    ensures var c := Cache(LoadIndex(file).value, disk);
      && ShouldProcessWithLlm(c, url, cleanedHtml, sha256) == Decision(true, NewUrlReason)
      && GetCachedExtraction(c, url) == Done(None)
      && GetCacheStats(c, indexFileExists, baseDirectory).Done?
      && GetCacheStats(c, indexFileExists, baseDirectory).value.totalUrls == 0
  {
  }

  /** Round trip: once a page's content hash is recorded, the same content
      is not sent to the LLM again. */
  lemma UpdateThenUnchanged(
    c: Cache, sha256: string -> string, url: string, cleanedHtml: string,
    extractionData: Option<Json>, metadata: Option<Json>, now: string)
    ensures var c' := UpdateUrlRecord(c, sha256, url, sha256(cleanedHtml), extractionData, metadata, now);
      ShouldProcessWithLlm(c', url, cleanedHtml, sha256) == Decision(false, UnchangedReason)
  {
    var c' := UpdateUrlRecord(c, sha256, url, sha256(cleanedHtml), extractionData, metadata, now);
    assert !IsEmptyRecord(c'.index[url]);
  }

  /** Round trip: the documents written by an update are the ones the
      readers return afterwards. */
  lemma UpdateThenCached(
    c: Cache, sha256: string -> string, url: string, contentHash: string,
    extractionData: Option<Json>, metadata: Option<Json>, now: string)
    ensures var c' := UpdateUrlRecord(c, sha256, url, contentHash, extractionData, metadata, now);
      && (extractionData.Some? ==> GetCachedExtraction(c', url) == Done(extractionData))
      && (metadata.Some? ==> GetCachedMetadata(c', url) == Done(metadata))
  {
    var c' := UpdateUrlRecord(c, sha256, url, contentHash, extractionData, metadata, now);
    var h := CalculateUrlHash(sha256, url);
    var r := c'.index[url];
    assert HasRecord(c'.index, url) by { assert !IsEmptyRecord(r); }
    assert r.extractionFile == Holds(ExtractionFile(h)) && ExtractionFile(h) != "";
    assert r.metadataFile == Holds(MetadataFile(h)) && MetadataFile(h) != "";
    UpdateWritesOnlyItsFiles(c, sha256, url, contentHash, extractionData, metadata, now);
    if extractionData.Some? {
      assert Resolves(c'.disk, PresentValue(r.extractionFile));
    }
    if metadata.Some? {
      assert Resolves(c'.disk, PresentValue(r.metadataFile));
    }
  }

  /** Change detection: when the hashes of the old and new content differ,
      the page is reported changed, and the next update overwrites its
      record instead of adding one. */
  lemma ChangedContentOverwrites(
    c: Cache, sha256: string -> string, url: string, oldHtml: string, newHtml: string,
    extractionData: Option<Json>, metadata: Option<Json>, now: string)
    requires url in c.index && c.index[url].contentHash == Some(sha256(oldHtml))
    requires sha256(oldHtml) != sha256(newHtml)
    ensures ShouldProcessWithLlm(c, url, newHtml, sha256) == Decision(true, ChangedReason)
    ensures var c' := UpdateUrlRecord(c, sha256, url, sha256(newHtml), extractionData, metadata, now);
      |c'.index| == |c.index| && c'.index[url].contentHash == Some(sha256(newHtml))
  {
    assert !IsEmptyRecord(c.index[url]);
  }

  /** A record whose file-name keys are missing is counted as having both
      files and is never stale: `record.get(field, '')` joins the base
      directory with the empty name, and the base directory exists. */
  lemma MissingFileNameCountsAsPresent(c: Cache, url: string)
    requires url in c.index
    requires c.index[url].extractionFile.Absent? && c.index[url].metadataFile.Absent?
    ensures url in WithExtractionFile(c) && url in WithMetadataFile(c)
    ensures CleanupStaleEntries(c).Done? ==> url in CleanupStaleEntries(c).value.cache.index
  {
  }

  /** One record whose file name holds `null` makes cleanup raise before
      it removes anything, however stale the other records are, and makes
      the statistics raise too. */
  lemma NullFileNameAbortsCleanup(c: Cache, url: string, indexFileExists: bool, baseDirectory: string)
    requires url in c.index && c.index[url].extractionFile.HoldsNone?
    ensures CleanupStaleEntries(c) == Failed(PathTypeMessage)
    ensures GetCacheStats(c, indexFileExists, baseDirectory) == Failed(PathTypeMessage)
  {
    assert NullFileName(c.index[url]);
  }

  /** Cleanup is idempotent: a second pass over the same files removes
      nothing. */
  lemma CleanupIdempotent(c: Cache)
    ensures CleanupStaleEntries(c).Done? ==>
      var once := CleanupStaleEntries(c).value;
      CleanupStaleEntries(once.cache) == Done(CleanupResult(once.cache, 0, false))
  {
    if CleanupStaleEntries(c).Done? {
      var once := CleanupStaleEntries(c).value;
      assert !HasNullFileName(once.cache.index) by {
        forall u | u in once.cache.index
          ensures !NullFileName(once.cache.index[u])
        {
          assert once.cache.index[u] == c.index[u];
        }
      }
      var twice := CleanupStaleEntries(once.cache).value;
      forall u | u in once.cache.index
        ensures u in twice.cache.index
      {
        assert !IsStale(c.disk, c.index[u]);
      }
      assert twice.cache.index.Keys == once.cache.index.Keys;
      assert twice.cache.index == once.cache.index;
    }
  }

  /** After cleanup, every record has at least one of its files, so the two
      file counts of the statistics together cover every URL. */
  lemma {:induction false} StatsAfterCleanup(c: Cache, indexFileExists: bool, baseDirectory: string)
    ensures CleanupStaleEntries(c).Done? ==>
      var s := GetCacheStats(CleanupStaleEntries(c).value.cache, indexFileExists, baseDirectory);
      s.Done? && s.value.extractionFiles + s.value.metadataFiles >= s.value.totalUrls
  {
    if CleanupStaleEntries(c).Done? {
      var d := CleanupStaleEntries(c).value.cache;
      assert !HasNullFileName(d.index);
      var e, m := WithExtractionFile(d), WithMetadataFile(d);
      assert d.index.Keys <= e + m;
      SubsetCardinality(d.index.Keys, e + m);
      assert |e + m| <= |e| + |m| by {
        assert |e + m| + |e * m| == |e| + |m|;
      }
    }
  }

  /** The example run: an empty cache, page A first with content X, then X
      again, then Y. The first run is new, the second a cache hit returning
      the first extraction, the third a change that leaves A's single
      record pointing at the hash of Y and the new extraction. */
  lemma DedupScenario(
    sha256: string -> string, disk: Disk, a: string, x: string, y: string,
    firstExtraction: Json, secondExtraction: Json, meta: Json, t1: string, t3: string)
    requires sha256(x) != sha256(y)
    ensures var c0 := Cache(map[], disk);
      var c1 := UpdateUrlRecord(c0, sha256, a, sha256(x), Some(firstExtraction), Some(meta), t1);
      var c3 := UpdateUrlRecord(c1, sha256, a, sha256(y), Some(secondExtraction), Some(meta), t3);
      && ShouldProcessWithLlm(c0, a, x, sha256) == Decision(true, NewUrlReason)
      && ShouldProcessWithLlm(c1, a, x, sha256) == Decision(false, UnchangedReason)
      && GetCachedExtraction(c1, a) == Done(Some(firstExtraction))
      && ShouldProcessWithLlm(c1, a, y, sha256) == Decision(true, ChangedReason)
      && c3.index.Keys == {a}
      && c3.index[a].contentHash == Some(sha256(y))
      && GetCachedExtraction(c3, a) == Done(Some(secondExtraction))
  {
    var c0 := Cache(map[], disk);
    var c1 := UpdateUrlRecord(c0, sha256, a, sha256(x), Some(firstExtraction), Some(meta), t1);
    UpdateThenUnchanged(c0, sha256, a, x, Some(firstExtraction), Some(meta), t1);
    UpdateThenCached(c0, sha256, a, sha256(x), Some(firstExtraction), Some(meta), t1);
    ChangedContentOverwrites(c1, sha256, a, x, y, Some(secondExtraction), Some(meta), t3);
    UpdateThenCached(c1, sha256, a, sha256(y), Some(secondExtraction), Some(meta), t3);
  }
}

=== FILE: crawl_page.dfy ===
/**
  A crawled page as the crawl collaborator hands it over: a dict with the
  keys `url`, `html`, `cleaned_html`, `depth` and `title`, to which the
  inclusion filter adds `included` and `decision_explanation`.

  A key the crawl may leave out, or set to `None` (`metadata.get('title')`
  of a page without a title is `None`), is a `Slot`: absent, holding
  `None`, or holding a value. The model assumes a `url`, because the crawl
  always sets one; a page without it would raise `KeyError` outside the
  per-page error handling of both loops.
 */
module CrawlPage {
  import opened Values

  datatype Page = Page(
    url: string,
    html: Slot<string>,
    cleanedHtml: Slot<string>,
    depth: Slot<int>,
    title: Slot<string>,
    included: Option<bool>,
    decisionExplanation: Option<Json>)
}

=== FILE: sequences.dfy ===
/**
  The shape shared by the per-page loops of the pipeline: walk a list in
  order, drop some elements, rewrite the ones that are kept.
 */
module Sequences {
  import opened Values

  /** The positions are strictly increasing, so they select elements of a
      list in their original order. */
  ghost predicate StrictlyIncreasing(idx: seq<nat>) {
    forall a, b :: 0 <= a < b < |idx| ==> idx[a] < idx[b]
  }

  /** Keep, in order, the elements that `f` maps to `Some`, each replaced by
      its image. */
  function FilterMap<A, B>(xs: seq<A>, f: A -> Option<B>): (ys: seq<B>)
    ensures |ys| <= |xs|
  {
    if |xs| == 0 then []
    else
      var rest := FilterMap(xs[1..], f);
      match f(xs[0])
      case Some(y) => [y] + rest
      case None => rest
  }

  /** `idx` lists, in increasing order, the positions of `xs` whose
      elements `f` keeps, and `ys` holds their images in that order. */
  ghost predicate Selects<A, B>(xs: seq<A>, f: A -> Option<B>, ys: seq<B>, idx: seq<nat>) {
    && |idx| == |ys|
    && StrictlyIncreasing(idx)
    && (forall k :: 0 <= k < |idx| ==> idx[k] < |xs| && f(xs[idx[k]]) == Some(ys[k]))
    && (forall i :: 0 <= i < |xs| && f(xs[i]).Some? ==> i in idx)
  }

  /** `FilterMap` is an order-preserving selection: it returns the positions
      of the kept elements, which are exactly those `f` maps to `Some`. */
  lemma {:induction false} FilterMapSelects<A, B>(xs: seq<A>, f: A -> Option<B>) returns (idx: seq<nat>)
    ensures |idx| == |FilterMap(xs, f)|
    ensures StrictlyIncreasing(idx)
    ensures forall k :: 0 <= k < |idx| ==> idx[k] < |xs| && f(xs[idx[k]]) == Some(FilterMap(xs, f)[k])
    ensures forall i :: 0 <= i < |xs| && f(xs[i]).Some? ==> i in idx
  {
    if |xs| == 0 {
      return [];
    }
    var rest := FilterMapSelects(xs[1..], f);
    assert Selects(xs[1..], f, FilterMap(xs[1..], f), rest);
    idx := SelectsCons(xs, f, FilterMap(xs[1..], f), rest);
    assert Selects(xs, f, FilterMap(xs, f), idx);
  }

  /** One step of the selection: extending the list at the front either
      keeps the new head at position 0 or skips it. */
  lemma SelectsCons<A, B>(xs: seq<A>, f: A -> Option<B>, rs: seq<B>, rest: seq<nat>) returns (idx: seq<nat>)
    requires |xs| > 0
    requires Selects(xs[1..], f, rs, rest)
    ensures f(xs[0]).None? ==> Selects(xs, f, rs, idx)
    ensures f(xs[0]).Some? ==> Selects(xs, f, [f(xs[0]).value] + rs, idx)
  {
    var shifted := SelectsShift(xs, f, rs, rest);
    if f(xs[0]).None? {
      return shifted;
    }
    idx := SelectsKeep(xs, f, rs, shifted);
  }

  /** Keeping the head: position 0 goes in front of the shifted positions
      of the tail. */
  lemma SelectsKeep<A, B>(xs: seq<A>, f: A -> Option<B>, rs: seq<B>, shifted: seq<nat>) returns (idx: seq<nat>)
    requires |xs| > 0 && f(xs[0]).Some?
    requires |shifted| == |rs| && StrictlyIncreasing(shifted)
    requires forall k :: 0 <= k < |shifted| ==> 0 < shifted[k] < |xs| && f(xs[shifted[k]]) == Some(rs[k])
    requires forall i :: 0 < i < |xs| && f(xs[i]).Some? ==> i in shifted
    ensures Selects(xs, f, [f(xs[0]).value] + rs, idx)
  {
    idx := ConsZero(shifted);
    var ys := [f(xs[0]).value] + rs;
    forall k | 0 <= k < |idx|
      ensures idx[k] < |xs| && f(xs[idx[k]]) == Some(ys[k])
    {
      if k > 0 {
        assert ys[k] == rs[k - 1];
      }
    }
    forall i | 0 <= i < |xs| && f(xs[i]).Some?
      ensures i in idx
    {
      if i == 0 {
        assert idx[0] == i;
      } else {
        var k :| 0 <= k < |shifted| && shifted[k] == i;
        assert idx[k + 1] == i;
      }
    }
  }

  /** The tail's selection, moved one place right, selects the same
      elements inside the whole list. */
  lemma SelectsShift<A, B>(xs: seq<A>, f: A -> Option<B>, rs: seq<B>, rest: seq<nat>) returns (shifted: seq<nat>)
    requires |xs| > 0
    requires Selects(xs[1..], f, rs, rest)
    ensures |shifted| == |rs| && StrictlyIncreasing(shifted)
    ensures forall k :: 0 <= k < |shifted| ==> 0 < shifted[k] < |xs| && f(xs[shifted[k]]) == Some(rs[k])
    ensures forall i :: 0 < i < |xs| && f(xs[i]).Some? ==> i in shifted
  {
    var tail := xs[1..];
    shifted := Shift(rest);
    forall k | 0 <= k < |shifted|
      ensures 0 < shifted[k] < |xs| && f(xs[shifted[k]]) == Some(rs[k])
    {
      assert xs[shifted[k]] == tail[rest[k]];
    }
    forall i | 0 < i < |xs| && f(xs[i]).Some?
      ensures i in shifted
    {
      assert f(tail[i - 1]).Some?;
      var k :| 0 <= k < |rest| && rest[k] == i - 1;
      assert shifted[k] == i;
    }
  }

  /** Position 0 put in front of positive increasing positions. */
  function ConsZero(s: seq<nat>): (t: seq<nat>)
    requires StrictlyIncreasing(s)
    requires forall k :: 0 <= k < |s| ==> s[k] > 0
    ensures |t| == |s| + 1 && t[0] == 0 && StrictlyIncreasing(t)
    ensures forall k :: 0 < k < |t| ==> t[k] == s[k - 1]
  {
    var t := seq(|s| + 1, k requires 0 <= k <= |s| => if k == 0 then 0 else s[k - 1]);
    assert forall a, b :: 0 <= a < b < |t| ==> t[a] < t[b] by {
      forall a, b | 0 <= a < b < |t|
        ensures t[a] < t[b]
      {
        if a > 0 {
          assert t[a] == s[a - 1] && t[b] == s[b - 1];
        }
      }
    }
    t
  }

  /** Every position moved one place to the right. */
  function Shift(idx: seq<nat>): (r: seq<nat>)
    requires StrictlyIncreasing(idx)
    ensures |r| == |idx| && StrictlyIncreasing(r)
    ensures forall k :: 0 <= k < |r| ==> r[k] == idx[k] + 1
  {
    seq(|idx|, k requires 0 <= k < |idx| => idx[k] + 1)
  }
}

=== FILE: sets.dfy ===
/**
  Counting facts about finite sets, shared by the statistics and the
  cleanup of the content index.
 */
module Sets {

  /** A subset is no larger than its superset, and removing it leaves the
      difference of the sizes. */
  lemma SubsetCardinality<T>(a: set<T>, b: set<T>)
    requires a <= b
    ensures |a| <= |b|
    ensures |b - a| == |b| - |a|
  {
    assert b == a + (b - a);
  }
}

=== FILE: text.dfy ===
/**
  The handful of Python `str` operations the core relies on: `c in s`,
  `sub in s`, `find` / `rfind` of one character, slicing, `lower()`,
  `strip()` and the decimal rendering of a non-negative int in an f-string.
 */
module Text {

  /** CPython's `str.isspace()` for one character. */
  predicate IsSpace(c: char) {
    var n := c as int;
    || n == 0x20
    || 0x09 <= n <= 0x0D
    || 0x1C <= n <= 0x1F
    || n == 0x85 || n == 0xA0 || n == 0x1680
    || 0x2000 <= n <= 0x200A
    || n == 0x2028 || n == 0x2029 || n == 0x202F || n == 0x205F || n == 0x3000
  }

  /** `lower()` of one character, for the ASCII letters. */
  function LowerChar(c: char): char {
    if 'A' <= c <= 'Z' then (c as int + 32) as char else c
  }

  /** `s.lower()`, character by character. */
  function Lower(s: string): (r: string)
    ensures |r| == |s|
    ensures forall i :: 0 <= i < |s| ==> r[i] == LowerChar(s[i])
  {
    seq(|s|, i requires 0 <= i < |s| => LowerChar(s[i]))
  }

  /** Lower-casing twice is lower-casing once: no ASCII capital is left. */
  lemma LowerIdempotent(s: string)
    ensures forall i :: 0 <= i < |s| ==> !('A' <= Lower(s)[i] <= 'Z')
    ensures Lower(Lower(s)) == Lower(s)
  {
    var r := Lower(s);
    forall i | 0 <= i < |s|
      ensures !('A' <= r[i] <= 'Z') && LowerChar(r[i]) == r[i]
    {
      assert r[i] == LowerChar(s[i]);
    }
    assert Lower(r) == r;
  }

  /** `sub` occurs in `s` starting at position `i`. */
  predicate OccursAt(s: string, sub: string, i: int) {
    0 <= i && i + |sub| <= |s| && s[i..i + |sub|] == sub
  }

  /** Python's substring test `sub in s`, scanning from the front. */
  predicate Contains(s: string, sub: string)
    decreases |s|
  {
    OccursAt(s, sub, 0) || (|s| > 0 && Contains(s[1..], sub))
  }

  /** The scan finds `sub` exactly when it occurs at some position. */
  lemma {:induction false} ContainsIffOccurs(s: string, sub: string)
    ensures Contains(s, sub) <==> exists i :: 0 <= i <= |s| && OccursAt(s, sub, i)
    decreases |s|
  {
    if |s| > 0 {
      ContainsIffOccurs(s[1..], sub);
      if exists i :: 0 <= i <= |s| && OccursAt(s, sub, i) {
        var i :| 0 <= i <= |s| && OccursAt(s, sub, i);
        if i > 0 {
          assert s[1..][i - 1..i - 1 + |sub|] == s[i..i + |sub|];
          assert OccursAt(s[1..], sub, i - 1);
        }
      }
      if Contains(s[1..], sub) {
        var j :| 0 <= j <= |s[1..]| && OccursAt(s[1..], sub, j);
        assert s[1..][j..j + |sub|] == s[j + 1..j + 1 + |sub|];
        assert OccursAt(s, sub, j + 1);
      }
    }
  }

  /** Only a string at least as long as `sub` can contain it. */
  lemma {:induction false} ContainsNeedsLength(s: string, sub: string)
    requires Contains(s, sub)
    ensures |sub| <= |s|
    decreases |s|
  {
    if !OccursAt(s, sub, 0) {
      ContainsNeedsLength(s[1..], sub);
    }
  }

  /** `s.find(c)` for a single character: the first position of `c`, or -1. */
  function Find(s: string, c: char): (r: int)
    ensures -1 <= r < |s|
    ensures r == -1 <==> c !in s
    ensures 0 <= r ==> s[r] == c && c !in s[..r]
  {
    if |s| == 0 then -1
    else if s[0] == c then 0
    else
      var k := Find(s[1..], c);
      FirstOccurrenceShifts(s, c, k);
      if k == -1 then -1 else k + 1
  }

  /** The first `c` of `s` without its first character, shifted by one, is
      the first `c` of `s` when that first character is not `c`. */
  lemma FirstOccurrenceShifts(s: string, c: char, k: int)
    requires |s| > 0 && s[0] != c
    requires -1 <= k < |s| - 1
    requires k == -1 <==> c !in s[1..]
    requires 0 <= k ==> s[1..][k] == c && c !in s[1..][..k]
    ensures k == -1 <==> c !in s
    ensures 0 <= k ==> s[k + 1] == c && c !in s[..k + 1]
  {
    if c in s {
      var i :| 0 <= i < |s| && s[i] == c;
      assert s[1..][i - 1] == c;
    }
    if 0 <= k {
      assert s[k + 1] == s[1..][k];
      forall j | 0 <= j < k + 1
        ensures s[j] != c
      {
        if 0 < j {
          assert s[1..][..k][j - 1] == s[j];
        }
      }
    }
  }

  /** `s.rfind(c)` for a single character: the last position of `c`, or -1. */
  function RFind(s: string, c: char): (r: int)
    ensures -1 <= r < |s|
    ensures r == -1 <==> c !in s
    ensures 0 <= r ==> s[r] == c && c !in s[r + 1..]
  {
    if |s| == 0 then -1
    else if s[|s| - 1] == c then |s| - 1
    else
      var k := RFind(s[..|s| - 1], c);
      LastOccurrenceExtends(s, c, k);
      k
  }

  /** The last `c` of `s` minus its final character is the last `c` of `s`
      when that final character is not `c`. */
  lemma LastOccurrenceExtends(s: string, c: char, k: int)
    requires |s| > 0 && s[|s| - 1] != c
    requires -1 <= k < |s| - 1
    requires k == -1 <==> c !in s[..|s| - 1]
    requires 0 <= k ==> s[..|s| - 1][k] == c && c !in s[..|s| - 1][k + 1..]
    ensures k == -1 <==> c !in s
    ensures 0 <= k ==> s[k] == c && c !in s[k + 1..]
  {
    var p := s[..|s| - 1];
    if c in s {
      var i :| 0 <= i < |s| && s[i] == c;
      assert p[i] == c;
    }
    if 0 <= k {
      assert s[k] == p[k];
      assert s[k + 1..] == p[k + 1..] + [s[|s| - 1]];
      forall j | k + 1 <= j < |s|
        ensures s[j] != c
      {
        if j < |s| - 1 {
          assert p[k + 1..][j - k - 1] == s[j];
        }
      }
    }
  }

  /** A position holding `c` with no `c` after it is what `rfind` returns. */
  lemma RFindLast(s: string, c: char, i: nat)
    requires i < |s| && s[i] == c && c !in s[i + 1..]
    ensures RFind(s, c) == i
  {
    assert s[i] in s;
    var r := RFind(s, c);
    forall j | r < j < |s|
      ensures s[j] != c
    {
      assert s[r + 1..][j - r - 1] == s[j];
    }
    forall j | i < j < |s|
      ensures s[j] != c
    {
      assert s[i + 1..][j - i - 1] == s[j];
    }
  }

  /** Python's `s[i:j]` for non-negative bounds: clamped to the string, and
      empty when `j <= i`. */
  function Slice(s: string, i: nat, j: nat): (r: string)
    ensures i < j <= |s| ==> r == s[i..j]
    ensures j <= i ==> r == []
    ensures |r| <= |s|
  {
    var hi := if j <= |s| then j else |s|;
    if i < hi then s[i..hi] else []
  }

  /** Python's `s[:n]`: the first `n` characters, or all of a shorter `s`. */
  function Take(s: string, n: nat): (r: string)
    ensures r <= s
    ensures |r| == if |s| <= n then |s| else n
  {
    if n <= |s| then s[..n] else s
  }

  /** The number of whitespace characters `strip()` removes at the front. */
  function LeadingSpace(s: string): (n: nat)
    ensures n <= |s|
    ensures forall i :: 0 <= i < n ==> IsSpace(s[i])
    ensures n < |s| ==> !IsSpace(s[n])
  {
    if |s| > 0 && IsSpace(s[0]) then 1 + LeadingSpace(s[1..]) else 0
  }

  /** The number of whitespace characters `strip()` removes at the back. */
  function TrailingSpace(s: string): (n: nat)
    ensures n <= |s|
    ensures forall i :: |s| - n <= i < |s| ==> IsSpace(s[i])
    ensures n < |s| ==> !IsSpace(s[|s| - n - 1])
  {
    if |s| > 0 && IsSpace(s[|s| - 1]) then 1 + TrailingSpace(s[..|s| - 1]) else 0
  }

  /** `s.strip()`: the longest infix that neither starts nor ends with
      whitespace, once the whitespace around it is dropped. */
  function Strip(s: string): (r: string)
    ensures LeadingSpace(s) + |r| <= |s|
    ensures r == s[LeadingSpace(s)..LeadingSpace(s) + |r|]
    ensures forall i :: LeadingSpace(s) + |r| <= i < |s| ==> IsSpace(s[i])
    ensures r == [] || (!IsSpace(r[0]) && !IsSpace(r[|r| - 1]))
  {
    var lo := LeadingSpace(s);
    var rest := s[lo..];
    var n := TrailingSpace(rest);
    StripSlice(s, lo, n);
    rest[..|rest| - n]
  }

  /** Where the stripped infix sits in `s`, and what surrounds it. */
  lemma StripSlice(s: string, lo: nat, n: nat)
    requires lo == LeadingSpace(s) && n == TrailingSpace(s[lo..])
    ensures var r := s[lo..][..|s| - lo - n];
      && r == s[lo..lo + |r|]
      && (forall i :: lo + |r| <= i < |s| ==> IsSpace(s[i]))
      && (r == [] || (!IsSpace(r[0]) && !IsSpace(r[|r| - 1])))
  {
    var rest := s[lo..];
    var r := rest[..|rest| - n];
    forall i | lo + |r| <= i < |s|
      ensures IsSpace(s[i])
    {
      assert s[i] == rest[i - lo];
    }
    if r != [] {
      assert r[0] == s[lo];
      assert r[|r| - 1] == rest[|rest| - n - 1];
    }
  }

  /** The character of one decimal digit. */
  function DigitChar(d: nat): char
    requires d < 10
  {
    ('0' as int + d) as char
  }

  /** The decimal rendering of `n`, as `f"{n}"` prints it. */
  function NatToString(n: nat): (r: string)
    ensures |r| >= 1
    ensures n >= 10 ==> |r| >= 2
    ensures forall k :: 0 <= k < |r| ==> '0' <= r[k] <= '9'
    ensures n > 0 ==> r[0] != '0'
  {
    if n < 10 then [DigitChar(n)] else NatToString(n / 10) + [DigitChar(n % 10)]
  }

  /** Distinct numbers print differently, so file names built from them do
      not collide. */
  lemma {:induction false} NatToStringInjective(a: nat, b: nat)
    requires NatToString(a) == NatToString(b)
    ensures a == b
  {
    if a >= 10 && b >= 10 {
      var sa, sb := NatToString(a), NatToString(b);
      assert sa[|sa| - 1] == DigitChar(a % 10);
      assert sb[|sb| - 1] == DigitChar(b % 10);
      assert sa[..|sa| - 1] == NatToString(a / 10);
      assert sb[..|sb| - 1] == NatToString(b / 10);
      NatToStringInjective(a / 10, b / 10);
    }
  }

  /** A string cut out of the same frame on both sides determines its
      middle part. */
  lemma FramedInjective(pre: string, x: string, y: string, post: string)
    requires pre + x + post == pre + y + post
    ensures x == y
  {
    var sx, sy := pre + x + post, pre + y + post;
    assert |x| == |y|;
    assert x == sx[|pre|..|pre| + |x|];
    assert y == sy[|pre|..|pre| + |y|];
  }

  /** `sep.join(parts)` for a one-character separator. */
  function Join(parts: seq<string>, sep: char): (r: string)
    ensures |parts| == 0 ==> r == ""
    ensures |parts| == 1 ==> r == parts[0]
    ensures |parts| > 0 ==> parts[0] <= r
  {
    if |parts| == 0 then ""
    else if |parts| == 1 then parts[0]
    else parts[0] + [sep] + Join(parts[1..], sep)
  }

  /** `s.split(sep)` for a one-character separator: the pieces between the
      separators, so always at least one. */
  function Split(s: string, sep: char): (parts: seq<string>)
    ensures |parts| >= 1
    ensures forall k :: 0 <= k < |parts| ==> sep !in parts[k]
    decreases |s|
  {
    var k := Find(s, sep);
    if k == -1 then [s] else [s[..k]] + Split(s[k + 1..], sep)
  }

  /** The first separator of `head + [sep] + tail` is the one after `head`
      when `head` holds none. */
  lemma FindAfterHead(head: string, sep: char, tail: string)
    requires sep !in head
    ensures Find(head + [sep] + tail, sep) == |head|
  {
    var s := head + [sep] + tail;
    assert s[|head|] == sep;
    forall j | 0 <= j < |head|
      ensures s[j] != sep
    {
      assert s[j] == head[j];
    }
    forall j | |head| < j <= |s|
      ensures sep in s[..j]
    {
      assert s[..j][|head|] == sep;
    }
  }

  /** Splitting past a first piece without the separator. */
  lemma SplitCons(head: string, sep: char, tail: string)
    requires sep !in head
    ensures Split(head + [sep] + tail, sep) == [head] + Split(tail, sep)
  {
    var s := head + [sep] + tail;
    FindAfterHead(head, sep, tail);
    assert s[..|head|] == head;
    assert s[|head| + 1..] == tail;
  }

  /** Joining pieces that hold no separator and splitting the result gives
      the pieces back. */
  lemma {:induction false} SplitJoin(parts: seq<string>, sep: char)
    requires |parts| > 0
    requires forall k :: 0 <= k < |parts| ==> sep !in parts[k]
    ensures Split(Join(parts, sep), sep) == parts
  {
    if |parts| == 1 {
      assert Find(parts[0], sep) == -1;
    } else {
      var head, rest := parts[0], parts[1..];
      assert Join(parts, sep) == head + [sep] + Join(rest, sep);
      SplitCons(head, sep, Join(rest, sep));
      assert forall k :: 0 <= k < |rest| ==> sep !in rest[k] by {
        forall k | 0 <= k < |rest| ensures sep !in rest[k] {
          assert rest[k] == parts[k + 1];
        }
      }
      SplitJoin(rest, sep);
      assert parts == [head] + rest;
    }
  }
}

=== FILE: url_filter.dfy ===
/**
  The inclusion filter (`URLFilter`): ask an LLM whether each crawled page
  belongs to the target topic, read a binary decision out of whatever text
  comes back, and keep every page it cannot confidently exclude.

  The chat-completion call, the prompt text and `json.loads` are
  parameters: `chat` answers a request with a reply or an error message,
  `makePrompt` builds the prompt from the topic, URL, title and content
  sample, and `loads` decodes a JSON text.
 */
module UrlFilter {
  import opened Values
  import opened Text
  import opened Sequences
  import opened CrawlPage

  // ---------------------------------------------------------------------
  // Parsing the LLM's answer
  // ---------------------------------------------------------------------

  /** What `json.loads` does with a text: a document, or the message of the
      `JSONDecodeError` it raises. */
  datatype Decoded = Decoded(value: Json) | DecodeError(msg: string)

  /** CPython's message for decoding an empty text. */
  const EmptyJsonMessage := "Expecting value: line 1 column 1 (char 0)"

  /** `json.loads(text)`: the decoder is the parameter `loads`, except that
      the empty text is always rejected. */
  function LoadsJson(loads: string -> Decoded, text: string): (d: Decoded)
    ensures text == "" ==> d == DecodeError(EmptyJsonMessage)
    ensures text != "" ==> d == loads(text)
  {
    if text == "" then DecodeError(EmptyJsonMessage) else loads(text)
  }

  /** A binary decision with its explanation. The explanation is whatever
      the answer's `explanation` field held, so it need not be a string. */
  datatype Verdict = Verdict(included: bool, explanation: Json)

  /** The answer is treated as JSON when it has an opening and a closing
      brace anywhere. */
  predicate HasBraces(text: string) {
    '{' in text && '}' in text
  }

  /** The text from the first `{` through the last `}`; empty when the
      last `}` comes before the first `{`. */
  function JsonSpan(text: string): (span: string)
    requires HasBraces(text)
    ensures RFind(text, '}') < Find(text, '{') ==> span == ""
    ensures Find(text, '{') < RFind(text, '}') ==>
      span == text[Find(text, '{')..RFind(text, '}') + 1] && span[0] == '{' && span[|span| - 1] == '}'
  {
    Slice(text, Find(text, '{'), RFind(text, '}') + 1)
  }

  /** The prefix of an error explanation. */
  function ParseError(msg: string): Json {
    Str("Parse error: " + msg)
  }

  /** The decision read from a decoded answer. A `decision` that is not a
      string, and a document that is not an object, raise `AttributeError`,
      which ends in the parse-error answer. */
  function DecisionVerdict(data: Json): (v: Verdict)
    ensures !v.included ==> data.Obj? && Get(data.fields, "decision", Str("")).Str?
  {
    match data
    case Obj(fields) =>
      var decision := Get(fields, "decision", Str(""));
      if !decision.Str? then Verdict(true, ParseError(NoAttributeMessage(decision, "lower")))
      else Verdict(Strip(Lower(decision.s)) == "include", Get(fields, "explanation", Str("No explanation provided")))
    case _ => Verdict(true, ParseError(NoAttributeMessage(data, "get")))
  }

  /** The keyword scan used when the answer lacks a `{` or a `}`: excluded
      exactly when "exclude" appears without "include", in any letter case;
      a plain answer is its own explanation, an ambiguous one is marked. */
  function KeywordVerdict(text: string): (v: Verdict)
    ensures !v.included <==> Contains(Lower(text), "exclude") && !Contains(Lower(text), "include")
    ensures v.included && Contains(Lower(text), "include") && !Contains(Lower(text), "exclude") ==> v.explanation == Str(text)
    ensures v.included && Contains(Lower(text), "include") == Contains(Lower(text), "exclude") ==>
      v.explanation == Str("Could not parse clear decision: " + text)
  {
    var lower := Lower(text);
    if Contains(lower, "include") && !Contains(lower, "exclude") then Verdict(true, Str(text))
    else if Contains(lower, "exclude") && !Contains(lower, "include") then Verdict(false, Str(text))
    else Verdict(true, Str("Could not parse clear decision: " + text))
  }

  /** The answer asks, unambiguously, for the page to be left out: a JSON
      object whose `decision` is a string that is not "include" once
      lower-cased and stripped (an absent decision reads as ""), or, when
      the answer lacks a `{` or a `}`, the word "exclude" without the word
      "include" in any letter case. */
  ghost predicate ExplicitlyExcluded(text: string, loads: string -> Decoded) {
    if HasBraces(text) then
      var d := LoadsJson(loads, JsonSpan(text));
      && d.Decoded?
      && d.value.Obj?
      && Get(d.value.fields, "decision", Str("")).Str?
      && Strip(Lower(Get(d.value.fields, "decision", Str("")).s)) != "include"
    else
      Contains(Lower(text), "exclude") && !Contains(Lower(text), "include")
  }

  /** `_parse_inclusion_response`: fail-open, so the page is excluded only
      when the answer explicitly says so. */
  function ParseInclusionResponse(text: string, loads: string -> Decoded): (v: Verdict)
    ensures !v.included <==> ExplicitlyExcluded(text, loads)
  {
    if HasBraces(text) then
      match LoadsJson(loads, JsonSpan(text))
      case DecodeError(msg) => Verdict(true, ParseError(msg))
      case Decoded(data) => DecisionVerdict(data)
    else
      KeywordVerdict(text)
  }

  /** With braces, a decoded object decides: included exactly when its
      `decision`, lower-cased and stripped, is "include"; the explanation is
      its `explanation` field or a fixed placeholder. */
  lemma JsonDecision(text: string, loads: string -> Decoded, fields: map<string, Json>, decision: string)
    requires HasBraces(text)
    requires LoadsJson(loads, JsonSpan(text)) == Decoded(Obj(fields))
    requires Get(fields, "decision", Str("")) == Str(decision)
    ensures var v := ParseInclusionResponse(text, loads);
      && (v.included <==> Strip(Lower(decision)) == "include")
      && v.explanation == Get(fields, "explanation", Str("No explanation provided"))
  {
  }

  /** With braces, an object without a `decision` field excludes the page. */
  lemma MissingDecisionExcludes(text: string, loads: string -> Decoded, fields: map<string, Json>)
    requires HasBraces(text)
    requires LoadsJson(loads, JsonSpan(text)) == Decoded(Obj(fields))
    requires "decision" !in fields
    ensures !ParseInclusionResponse(text, loads).included
  {
    assert Strip(Lower("")) == "";
  }

  /** With braces, a decoding failure includes the page with a parse-error
      explanation; the keyword scan is not tried, whatever words the text
      holds. */
  lemma DecodeFailureHasNoFallback(text: string, loads: string -> Decoded, msg: string)
    requires HasBraces(text)
    requires LoadsJson(loads, JsonSpan(text)) == DecodeError(msg)
    ensures ParseInclusionResponse(text, loads) == Verdict(true, Str("Parse error: " + msg))
  {
  }

  /** With the last `}` before the first `{`, the span is empty, so decoding
      fails and the page is included with a parse error. */
  lemma ReversedBracesIncluded(text: string, loads: string -> Decoded)
    requires HasBraces(text)
    requires RFind(text, '}') < Find(text, '{')
    ensures ParseInclusionResponse(text, loads) == Verdict(true, Str("Parse error: " + EmptyJsonMessage))
  {
    assert JsonSpan(text) == "";
  }

  /** Without braces, the keyword scan decides: "include" alone includes
      and "exclude" alone excludes, both with the text as explanation; both
      or neither include the page as an unclear answer. */
  lemma KeywordFallback(text: string, loads: string -> Decoded)
    requires !HasBraces(text)
    ensures var lower, v := Lower(text), ParseInclusionResponse(text, loads);
      && (Contains(lower, "include") && !Contains(lower, "exclude") ==> v == Verdict(true, Str(text)))
      && (Contains(lower, "exclude") && !Contains(lower, "include") ==> v == Verdict(false, Str(text)))
      && (Contains(lower, "include") == Contains(lower, "exclude") ==>
            v == Verdict(true, Str("Could not parse clear decision: " + text)))
  {
  }

  /** The keyword scan ignores letter case. */
  lemma CapitalisedExcludeExcludes(loads: string -> Decoded)
    ensures ParseInclusionResponse("EXCLUDE", loads) == Verdict(false, Str("EXCLUDE"))
  {
    var lower := Lower("EXCLUDE");
    assert lower == "exclude";
    assert OccursAt(lower, "exclude", 0);
    assert !OccursAt(lower, "include", 0) by {
      assert lower[0] != "include"[0];
    }
    if Contains(lower[1..], "include") {
      ContainsNeedsLength(lower[1..], "include");
    }
    assert !HasBraces("EXCLUDE");
  }

  /** One brace is not enough for the JSON branch: an answer with a `{`
      but no `}` is read by the keyword scan. */
  lemma OneBraceUsesKeywords(loads: string -> Decoded)
    ensures ParseInclusionResponse("exclude {", loads) == Verdict(false, Str("exclude {"))
  {
    var text := "exclude {";
    assert !HasBraces(text) by {
      assert forall k :: 0 <= k < |text| ==> text[k] != '}';
    }
    assert Lower(text) == text;
    assert Contains(text, "exclude") by {
      assert OccursAt(text, "exclude", 0);
    }
    assert !Contains(text, "include") by {
      ContainsIffOccurs(text, "include");
      forall i | 0 <= i <= |text|
        ensures !OccursAt(text, "include", i)
      {
        if i + 7 <= |text| {
          assert text[i..i + 7][0] == text[i] != 'i';
        }
      }
    }
  }

  // ---------------------------------------------------------------------
  // Analysing one page
  // ---------------------------------------------------------------------

  /** The filter's settings: the filtering model's provider string and
      temperature, and the target topic. */
  datatype Filter = Filter(provider: string, temperature: real, targetTopic: string)

  /** `set_target_topic`: only the topic changes. */
  function SetTargetTopic(f: Filter, targetTopic: string): (f': Filter)
    ensures f'.targetTopic == targetTopic
    ensures f'.provider == f.provider && f'.temperature == f.temperature
  {
    f.(targetTopic := targetTopic)
  }

  /** How many characters of a page are shown to the LLM. */
  const SampleLimit: nat := 2000

  /** `sample` is the first `SampleLimit` characters of `source`, or all of
      a shorter one. */
  predicate IsSampleOf(sample: string, source: string) {
    sample <= source && |sample| == if |source| <= SampleLimit then |source| else SampleLimit
  }

  /** The message of the `TypeError` raised by slicing `None`. */
  const NotSubscriptableMessage := "'NoneType' object is not subscriptable"

  /** The content sample, or the exception taking it raised. */
  datatype Sample = Sample(text: string) | SampleRaised(msg: string)

  /** The content sample: taken from `cleaned_html` when the page has that
      key, else from `html`, else empty. The key is chosen by presence, so a
      chosen key holding `None` is sliced and raises. */
  function ContentSample(page: Page): (sample: Sample)
    ensures sample.Sample? ==> |sample.text| <= SampleLimit
    ensures sample.SampleRaised? <==>
      page.cleanedHtml.HoldsNone? || (page.cleanedHtml.Absent? && page.html.HoldsNone?)
    ensures sample.SampleRaised? ==> sample.msg == NotSubscriptableMessage
    ensures page.cleanedHtml.Holds? ==> sample.Sample? && IsSampleOf(sample.text, page.cleanedHtml.value)
    ensures page.cleanedHtml.Absent? && page.html.Holds? ==> sample.Sample? && IsSampleOf(sample.text, page.html.value)
    ensures page.cleanedHtml.Absent? && page.html.Absent? ==> sample == Sample("")
  {
    match page.cleanedHtml
    case Holds(cleaned) => Sample(Take(cleaned, SampleLimit))
    case HoldsNone => SampleRaised(NotSubscriptableMessage)
    case Absent =>
      match page.html
      case Holds(html) => Sample(Take(html, SampleLimit))
      case HoldsNone => SampleRaised(NotSubscriptableMessage)
      case Absent => Sample("")
  }

  /** The title as the prompt shows it: `page_result.get('title', '')`
      formatted into an f-string, where `None` reads "None". */
  function PromptTitle(page: Page): (title: string)
    ensures page.title.Holds? ==> title == page.title.value
    ensures page.title.HoldsNone? ==> title == "None"
    ensures page.title.Absent? ==> title == ""
  {
    match page.title
    case Holds(t) => t
    case HoldsNone => "None"
    case Absent => ""
  }

  /** `provider.split('/')[-1]`: the part after the last slash, or the whole
      provider when it has none. */
  function ModelName(provider: string): (name: string)
    ensures '/' !in name
    ensures |name| <= |provider| && provider[|provider| - |name|..] == name
    ensures |name| < |provider| ==> provider[|provider| - |name| - 1] == '/'
  {
    var start := RFind(provider, '/') + 1;
    assert |provider| - |provider[start..]| == start;
    provider[start..]
  }

  /** The model is an o1 model when its lower-cased name contains "o1". */
  predicate IsO1Model(provider: string) {
    Contains(Lower(ModelName(provider)), "o1")
  }

  /** "o1-mini" after the slash is an o1 model. */
  lemma O1MiniIsO1()
    ensures IsO1Model("openai/o1-mini")
  {
    RFindLast("openai/o1-mini", '/', 6);
    assert ModelName("openai/o1-mini") == "o1-mini";
    assert Lower("o1-mini") == "o1-mini";
    assert OccursAt("o1-mini", "o1", 0);
  }

  /** "gpt-4o" after the slash is not an o1 model, although it holds both
      letters. */
  lemma Gpt4oIsNotO1()
    ensures !IsO1Model("openai/gpt-4o")
  {
    RFindLast("openai/gpt-4o", '/', 6);
    assert ModelName("openai/gpt-4o") == "gpt-4o";
    var name := Lower("gpt-4o");
    assert name == "gpt-4o";
    NoO1InGpt4o(name);
  }

  lemma NoO1InGpt4o(name: string)
    requires name == "gpt-4o"
    ensures !Contains(name, "o1")
  {
    ContainsIffOccurs(name, "o1");
    forall i | 0 <= i <= |name|
      ensures !OccursAt(name, "o1", i)
    {
      if i + 2 <= |name| {
        assert name[i..i + 2][0] == name[i] != 'o';
      }
    }
  }

  /** The author of a chat message, sent as "system" or "user". */
  datatype Role = System | User

  datatype Message = Message(role: Role, content: string)

  /** The arguments of `chat.completions.create`; `None` for an argument
      that is not passed. */
  datatype ChatRequest = ChatRequest(
    model: string,
    messages: seq<Message>,
    temperature: Option<real>,
    maxTokens: Option<nat>)

  /** `s` ends with `suffix`. */
  predicate EndsWith(s: string, suffix: string) {
    |suffix| <= |s| && s[|s| - |suffix|..] == suffix
  }

  const SystemInstruction := "You are an expert at analyzing web content for documentation inclusion decisions."

  /** The chat request for a prompt. o1 models get no system message, no
      temperature and no token limit: the instruction is put in front of
      the prompt in a single user message. Other models get the system
      message, the configured temperature and a 500-token limit. */
  function BuildChatRequest(provider: string, temperature: real, prompt: string): (r: ChatRequest)
    ensures r.model == ModelName(provider)
    ensures |r.messages| > 0 && r.messages[|r.messages| - 1].role == User
    ensures EndsWith(r.messages[|r.messages| - 1].content, prompt)
    ensures IsO1Model(provider) ==>
      && r.messages == [Message(User, SystemInstruction + "\n\n" + prompt)]
      && (forall m :: m in r.messages ==> m.role != System)
      && r.temperature.None? && r.maxTokens.None?
    ensures !IsO1Model(provider) ==>
      && r.messages == [Message(System, SystemInstruction), Message(User, prompt)]
      && r.temperature == Some(temperature) && r.maxTokens == Some(500)
  {
    var model := ModelName(provider);
    if IsO1Model(provider) then
      ChatRequest(model, [Message(User, SystemInstruction + "\n\n" + prompt)], None, None)
    else
      ChatRequest(model, [Message(System, SystemInstruction), Message(User, prompt)], Some(temperature), Some(500))
  }

  /** The reply of the chat call: the message text, or the message of the
      exception it raised. */
  datatype ChatReply = Completed(text: string) | CallFailed(msg: string)

  /** The request `_analyze_page_inclusion` sends for a page: the prompt
      built from the target topic, the URL, the title and the content
      sample goes last, to the filter's model. */
  function InclusionRequest(f: Filter, page: Page, sample: string, makePrompt: (string, string, string, string) -> string): (r: ChatRequest)
    ensures r.model == ModelName(f.provider)
    ensures |r.messages| > 0
    ensures EndsWith(r.messages[|r.messages| - 1].content, makePrompt(f.targetTopic, page.url, PromptTitle(page), sample))
  {
    BuildChatRequest(f.provider, f.temperature, makePrompt(f.targetTopic, page.url, PromptTitle(page), sample))
  }

  /** After `set_target_topic`, the next request asks about the new topic:
      it is what the prompt is built from. */
  lemma NewTopicReachesPrompt(f: Filter, topic: string, page: Page, sample: string,
                              makePrompt: (string, string, string, string) -> string)
    ensures var r := InclusionRequest(SetTargetTopic(f, topic), page, sample, makePrompt);
      EndsWith(r.messages[|r.messages| - 1].content, makePrompt(topic, page.url, PromptTitle(page), sample))
    ensures InclusionRequest(SetTargetTopic(f, topic), page, sample, makePrompt).model == ModelName(f.provider)
  {
  }

  /** `_analyze_page_inclusion`. Taking the sample happens before its `try`,
      so an exception there escapes to the filter loop; a failed call
      includes the page; otherwise the stripped reply text is parsed. */
  function AnalyzePageInclusion(
    f: Filter, page: Page, makePrompt: (string, string, string, string) -> string,
    chat: ChatRequest -> ChatReply, loads: string -> Decoded): (a: Analysis)
    ensures ContentSample(page).SampleRaised? ==> a == Raised(ContentSample(page).msg)
    ensures ContentSample(page).Sample? ==>
      var reply := chat(InclusionRequest(f, page, ContentSample(page).text, makePrompt));
      && (reply.CallFailed? ==> a == Analyzed(Verdict(true, Str("Analysis failed: " + reply.msg))))
      && (Excluded(a) ==> reply.Completed? && ExplicitlyExcluded(Strip(reply.text), loads))
      && (reply.Completed? ==> (Excluded(a) <==> ExplicitlyExcluded(Strip(reply.text), loads)))
    ensures Excluded(a) ==> ContentSample(page).Sample?
  {
    match ContentSample(page)
    case SampleRaised(msg) => Raised(msg)
    case Sample(sample) =>
      match chat(InclusionRequest(f, page, sample, makePrompt))
      case CallFailed(msg) => Analyzed(Verdict(true, Str("Analysis failed: " + msg)))
      case Completed(text) => Analyzed(ParseInclusionResponse(Strip(text), loads))
  }

  // ---------------------------------------------------------------------
  // Filtering the crawl
  // ---------------------------------------------------------------------

  /** The outcome of analysing one page: a verdict, or the message of an
      exception that escaped the analysis. */
  datatype Analysis = Analyzed(verdict: Verdict) | Raised(msg: string)

  /** The page is dropped: its analysis finished and said exclude. */
  predicate Excluded(a: Analysis) {
    a.Analyzed? && !a.verdict.included
  }

  /** What the loop does with one page: drop it, or keep it marked as
      included with the explanation of its verdict (or of the failure). */
  function Keep(page: Page, a: Analysis): (kept: Option<Page>)
    ensures kept.None? <==> Excluded(a)
    ensures kept.Some? ==> kept.value == page.(included := Some(true), decisionExplanation := kept.value.decisionExplanation)
    ensures a.Analyzed? && kept.Some? ==> kept.value.decisionExplanation == Some(a.verdict.explanation)
    ensures a.Raised? ==> kept.Some? && kept.value.decisionExplanation == Some(Str("Analysis failed: " + a.msg))
  {
    match a
    case Analyzed(v) =>
      if v.included then Some(page.(included := Some(true), decisionExplanation := Some(v.explanation))) else None
    case Raised(msg) =>
      Some(page.(included := Some(true), decisionExplanation := Some(Str("Analysis failed: " + msg))))
  }

  /** `filter_crawled_results`: the pages that are not excluded, in crawl
      order, each marked as included with an explanation. */
  function FilterCrawledResults(pages: seq<Page>, analyze: Page -> Analysis): (kept: seq<Page>)
    ensures |pages| == 0 ==> kept == []
    ensures |kept| <= |pages|
    ensures forall k :: 0 <= k < |kept| ==> kept[k].included == Some(true) && kept[k].decisionExplanation.Some?
  {
    if |pages| == 0 then []
    else
      var rest := FilterCrawledResults(pages[1..], analyze);
      match Keep(pages[0], analyze(pages[0]))
      case Some(p) => [p] + rest
      case None => rest
  }

  /** The filter is the order-preserving selection of the per-page step. */
  lemma {:induction false} FilterIsFilterMap(pages: seq<Page>, analyze: Page -> Analysis)
    ensures FilterCrawledResults(pages, analyze) == FilterMap(pages, (p: Page) => Keep(p, analyze(p)))
  {
    if |pages| > 0 {
      FilterIsFilterMap(pages[1..], analyze);
    }
  }

  /** The filter keeps the non-excluded pages in their crawl order and drops
      exactly the excluded ones: it returns the positions of the kept pages
      in the input. */
  lemma FilterKeepsOrder(pages: seq<Page>, analyze: Page -> Analysis) returns (idx: seq<nat>)
    ensures var kept := FilterCrawledResults(pages, analyze);
      && |idx| == |kept|
      && StrictlyIncreasing(idx)
      && (forall k :: 0 <= k < |idx| ==> idx[k] < |pages| && Keep(pages[idx[k]], analyze(pages[idx[k]])) == Some(kept[k]))
      && (forall i :: 0 <= i < |pages| ==> (i in idx <==> !Excluded(analyze(pages[i]))))
  {
    var f := (p: Page) => Keep(p, analyze(p));
    FilterIsFilterMap(pages, analyze);
    idx := FilterMapSelects(pages, f);
    forall i | 0 <= i < |pages| && i in idx
      ensures !Excluded(analyze(pages[i]))
    {
      var k :| 0 <= k < |idx| && idx[k] == i;
      assert f(pages[i]).Some?;
    }
  }

  /** A page whose analysis raised is kept, marked with the failure. */
  lemma FailedAnalysisKept(pages: seq<Page>, analyze: Page -> Analysis, i: nat)
    requires i < |pages| && analyze(pages[i]).Raised?
    ensures exists k :: (0 <= k < |FilterCrawledResults(pages, analyze)| &&
      FilterCrawledResults(pages, analyze)[k] ==
        pages[i].(included := Some(true), decisionExplanation := Some(Str("Analysis failed: " + analyze(pages[i]).msg))))
  {
    var idx := FilterKeepsOrder(pages, analyze);
    var k :| 0 <= k < |idx| && idx[k] == i;
  }

  /** A page whose `cleaned_html` holds `None` is not dropped: slicing it
      raises outside the analysis' own error handling, and the loop keeps
      the page with that failure as its explanation. */
  lemma NoneHtmlPageKept(
    pages: seq<Page>, i: nat, f: Filter, makePrompt: (string, string, string, string) -> string,
    chat: ChatRequest -> ChatReply, loads: string -> Decoded)
    requires i < |pages| && pages[i].cleanedHtml.HoldsNone?
    ensures var kept := FilterCrawledResults(pages, (p: Page) => AnalyzePageInclusion(f, p, makePrompt, chat, loads));
      exists k :: 0 <= k < |kept| &&
        kept[k] == pages[i].(included := Some(true),
                             decisionExplanation := Some(Str("Analysis failed: " + NotSubscriptableMessage)))
  {
    var analyze := (p: Page) => AnalyzePageInclusion(f, p, makePrompt, chat, loads);
    assert analyze(pages[i]) == Raised(NotSubscriptableMessage);
    FailedAnalysisKept(pages, analyze, i);
  }

  /** The filter works page by page: filtering two runs of pages one after
      the other gives the two results one after the other. */
  lemma {:induction false} FilterAppend(a: seq<Page>, b: seq<Page>, analyze: Page -> Analysis)
    ensures FilterCrawledResults(a + b, analyze) == FilterCrawledResults(a, analyze) + FilterCrawledResults(b, analyze)
  {
    if |a| == 0 {
      assert a + b == b;
    } else {
      assert (a + b)[0] == a[0];
      assert (a + b)[1..] == a[1..] + b;
      FilterAppend(a[1..], b, analyze);
    }
  }

  /** An excluded page leaves no trace: the filter returns what it would
      return without it. */
  lemma ExcludedPageDropped(pages: seq<Page>, i: nat, analyze: Page -> Analysis)
    requires i < |pages| && Excluded(analyze(pages[i]))
    ensures FilterCrawledResults(pages, analyze) == FilterCrawledResults(pages[..i] + pages[i + 1..], analyze)
  {
    assert FilterCrawledResults([pages[i]], analyze) == [] by {
      assert [pages[i]][1..] == [];
    }
    assert pages == pages[..i] + ([pages[i]] + pages[i + 1..]);
    FilterAppend([pages[i]], pages[i + 1..], analyze);
    FilterAppend(pages[..i], [pages[i]] + pages[i + 1..], analyze);
    FilterAppend(pages[..i], pages[i + 1..], analyze);
  }

  /** A page whose completed reply explicitly asks to leave it out is
      dropped from the filter's result. */
  lemma ExplicitExclusionDropped(
    pages: seq<Page>, i: nat, f: Filter, makePrompt: (string, string, string, string) -> string,
    chat: ChatRequest -> ChatReply, loads: string -> Decoded, reply: string)
    requires i < |pages| && ContentSample(pages[i]).Sample?
    requires chat(InclusionRequest(f, pages[i], ContentSample(pages[i]).text, makePrompt)) == Completed(reply)
    requires ExplicitlyExcluded(Strip(reply), loads)
    ensures var analyze := (p: Page) => AnalyzePageInclusion(f, p, makePrompt, chat, loads);
      FilterCrawledResults(pages, analyze) == FilterCrawledResults(pages[..i] + pages[i + 1..], analyze)
  {
    var analyze := (p: Page) => AnalyzePageInclusion(f, p, makePrompt, chat, loads);
    assert Excluded(analyze(pages[i]));
    ExcludedPageDropped(pages, i, analyze);
  }
}

=== FILE: values.dfy ===
/**
  Values shared by every component: Python's `Optional`, the JSON values that
  `json.load` / `json.dump` exchange, and the dictionary idioms the source
  leans on (`d.get(key)`, `d.get(key, default)` and truthiness tests such
  as `if not record:`).
 */
module Values {

  /** `None` or a present value. */
  datatype Option<+T> = None | Some(value: T)

  /** A dict key: absent, present with `None`, or present with a value. */
  datatype Slot<+T> = Absent | HoldsNone | Holds(value: T)

  /** `d.get(key)`: the value, or `None` for an absent key or one holding
      `None`. */
  function PresentValue<T>(s: Slot<T>): (v: Option<T>)
    ensures v.Some? <==> s.Holds?
    ensures s.Holds? ==> v.value == s.value
  {
    if s.Holds? then Some(s.value) else None
  }

  /** A decoded JSON document, as `json.load` returns it. Objects are
      unordered here; floating point specials (NaN, infinities) are not
      modelled. */
  datatype Json =
    | Null
    | Bool(b: bool)
    | Int(i: int)
    | Float(f: real)
    | Str(s: string)
    | Arr(items: seq<Json>)
    | Obj(fields: map<string, Json>)

  /** Python truthiness of a JSON value: `None`, `False`, zero, and empty
      strings, lists and dicts are false. */
  predicate Truthy(j: Json) {
    match j
    case Null => false
    case Bool(b) => b
    case Int(i) => i != 0
    case Float(f) => f != 0.0
    case Str(s) => s != ""
    case Arr(items) => items != []
    case Obj(fields) => fields != map[]
  }

  /** `d.get(key, default)` on a dict. */
  function Get(d: map<string, Json>, key: string, default: Json): (v: Json)
    ensures key in d ==> v == d[key]
    ensures key !in d ==> v == default
  {
    if key in d then d[key] else default
  }

  /** The name CPython reports for the type of a decoded JSON value, as it
      appears in an `AttributeError` message. */
  function TypeName(j: Json): string {
    match j
    case Null => "NoneType"
    case Bool(_) => "bool"
    case Int(_) => "int"
    case Float(_) => "float"
    case Str(_) => "str"
    case Arr(_) => "list"
    case Obj(_) => "dict"
  }

  /** The message of the `AttributeError` raised when `attr` is looked up on
      a value that lacks it. */
  function NoAttributeMessage(j: Json, attr: string): string {
    "'" + TypeName(j) + "' object has no attribute '" + attr + "'"
  }
}
